=== FILE: README.md ===
# citro3d-rs: target lifecycle, format tables and bit helpers in Dafny

This project models the safe Rust layer that citro3d-rs puts over the 3DS
graphics libraries citro3d and citro2d. The model has three parts.

- **The render-target lifecycle**, in `Citro3d`, `Render`, `Native` and
  `Lifecycle`:
  - an `Instance` holds a share of the render-queue anchor;
  - passive `ScreenTarget`s and active `RenderTarget`s wrap one native
    target each, and each holds another share and an exclusive screen
    borrow;
  - the frame scope `render_to_target` and the all-or-nothing
    `swap_render_target`;
  - lazily initialised texture-combiner slots and light-environment
    rebinding;
  - the drop rules: the native teardown runs when the last share of the
    anchor goes away.
- **The pure tables** of the render module, in `Formats`:
  - the framebuffer-to-colour-buffer mapping;
  - the `-1` "no depth buffer" sentinel;
  - the clear flags.
- **The bit helpers**:
  - the citro2d `Color` word and its `u32` conversions (`Color2d`);
  - the `IVec` byte getters (`Math`), both on the shared byte packing in
    `Bytes`;
  - the `DrawableResult` status with its `bool` conversion and its `?`
    semantics (`Drawable`).

Each native library call is an oracle. What it returns (a `bool` or a
pointer) is a parameter of the operation that makes the call, and the call
itself is appended to the world's `trace` of `Call`s. The `World` also
carries the live shares of each render-queue anchor as a multiset, since
`Rc` strong counts are multiplicities. It carries the set of borrowed
screens as well, standing in for the exclusive `RefMut`s. Operations take a
world and return the next one, so the contracts can say:
- which wrapper or error comes back;
- which native calls are made, and in what order;
- which parts of the state stay unchanged.

The `Lifecycle` module ties live values (the instance and the targets) to
the world's counts through the `Accounted` invariant. The lemmas ending in
`Accounted` show that it is kept by every operation that changes the world
or an instance:
- `New` is covered by `WithCmdbufSizeAccounted`, since it is init at the
  default size;
- dropping the instance or a target (`DropInstance`, `DropRenderTarget`,
  `DropScreenTarget`) is covered by `DropHolderAccounted`, and dropping
  several in turn by `DropAllAccounted`;
- `RenderToTarget` has two lemmas. `RenderToTargetFailureAccounted` covers
  the `?` exit outright for a scope that owns only targets. `RenderToTargetSuccessAccounted` is conditional: if
  the scope leaves the invariant holding, the frame end keeps it;
- the target constructors are covered by `CreateScreenTargetAccounted` and
  `CreateScreenTargetFromRawAccounted`;
- `SwapRenderTarget`, `SetRenderTarget`, `Clear`, `BindLightEnv` and
  `GetTexEnv` each have a lemma named after them.

The module also proves that, whatever order the holders are dropped in,
the teardown runs exactly once and as the very last call. The `Scenario`
module replays the library's own `select_render_target` test and
proves the exact call sequence it produces. In that test the instance is
dropped before both targets, and the single teardown comes last.

Constants that the source takes from the native headers, whose values are
fixed by those headers:
- the texture-combiner slot count is 6;
- the default command-buffer size is `0x40000`;
- the frame-begin flag `C3D_FRAME_SYNCDRAW` is 1, and frame-end is called
  with 0;
- the depth codes are 0 (16-bit), 2 (24-bit) and 3 (24-bit plus 8-bit
  stencil);
- the clear bits are 1 (colour), 2 (depth) and 3 (both).

Widths and heights are `usize` values, converted with `try_into` to the
native `int`. They are modelled as 32-bit unsigned values that must fit a
32-bit signed `int`, which is the only bound the conversion enforces. The
conversion error comes from the crate's error module, which is not part of
this model, and is modelled as `InvalidSize`.

When draw-on fails inside `render_to_target` (citro3d/src/lib.rs:156), the
code returns the error through `?`. The frame has already been begun and
no frame-end is issued on that path. On the way out the scope closure is
dropped first, and with it whatever it owns by move; the given target is
dropped after it. The model lets the closure own targets only:
`RenderToTarget` takes them as the sequence `captured`, in the order the
closure drops them.
`RenderToTargetFrameBalance` states that this path leaves the frame open.

## Model

| member | source | states |
|---|---|---|
| Native.NewQueue | citro3d/src/lib.rs:99 | `Rc::new` gives an anchor no live value held before, with exactly one share, and keeps every live anchor below the issue counter; it makes no native call and leaves every other anchor's shares and every screen borrow as they were |
| Native.ReleaseQueue | citro3d/src/lib.rs:397-403 | dropping one share removes exactly that share; the teardown call is appended exactly when it was the last one, i.e. exactly when the anchor is no longer held |
| Native.CloneQueue | citro3d/src/lib.rs:122 | `Rc::clone` adds exactly one share of the anchor and changes nothing else |
| Native.CloneReleaseRoundTrip | citro3d/src/lib.rs:397-403 | cloning a share and dropping it again restores the world, with no teardown |
| Native.ReleaseScreen | citro3d/src/render.rs:96 | dropping the screen borrow frees exactly that screen, so it can be borrowed again, and changes nothing else |
| Native.BorrowReleaseRoundTrip | citro3d/src/lib.rs:413-415 | borrowing a free screen and releasing it again restores the world |
| Native.BorrowScreen | citro3d/src/lib.rs:413-415 | an exclusive screen borrow succeeds exactly when the screen is not already borrowed, and then marks it borrowed |
| Formats.ColorFormatFrom | citro3d/src/render.rs:223-234 | the colour buffer chosen for a framebuffer format has that format's channel widths (Bgr8 goes to RGB8, which differs only in channel order) |
| Formats.ColorFormatFromUnique | citro3d/src/render.rs:206-234 | the mapping is the only width-preserving choice of colour buffer, and it is one-to-one |
| Formats.DepthCode | citro3d/src/render.rs:236-248 | each depth format's native code fits its `u8` representation |
| Formats.DepthArg | citro3d/src/render.rs:133 | the create call's depth argument is the `-1` sentinel exactly when no depth format is requested, and otherwise that format's code |
| Formats.DepthArgRoundTrip | citro3d/src/render.rs:241-256 | the depth argument can be read back to the request, so distinct requests reach the native side as distinct arguments |
| Formats.ClearedUnion | citro3d/src/render.rs:193-204 | combining clear flags clears exactly the union of the buffers each one clears |
| Formats.ClearAllIsColorAndDepth | citro3d/src/render.rs:193-204 | ALL is COLOR combined with DEPTH and clears both buffers; COLOR and DEPTH share no bit and each clears only its own buffer |
| Render.IntoInnerFromRenderTargetInverse | citro3d/src/render.rs:54-81 | `into_inner` and `From<RenderTarget>` are mutual inverses and keep the raw pointer, screen and queue |
| Render.DropArgs | citro3d/src/render.rs:119-139 | a constructor that fails gives back its screen borrow and its anchor share; teardown runs only if that share was the last |
| Render.NewRenderTarget | citro3d/src/render.rs:119-160 | success exactly when both sizes fit the native `int` and create returns non-null. A size that does not fit fails with `InvalidSize` before the create call; only the release of its share can append a teardown. A null pointer fails with `FailedToInitialize` after only the create call. On success the output is set with transfer in-format = out-format = the screen's colour buffer on the screen's side, and the target keeps pointer, screen and queue. Failures release screen and share |
| Render.RenderTargetFromRaw | citro3d/src/render.rs:162-176 | a null pointer is refused with `FailedToInitialize`, giving back screen and share; any other pointer is wrapped with no native call and no change to the world |
| Render.NewScreenTarget | citro3d/src/render.rs:28-42 | a new passive target succeeds under the same conditions as a new render target, wraps the same native target and leaves the same world; a size that does not fit gives `InvalidSize` and a null create result gives `FailedToInitialize` |
| Render.ScreenTargetFromRaw | citro3d/src/render.rs:44-52 | wrapping a raw pointer passively succeeds exactly for a non-null pointer and then calls nothing and changes nothing; a null pointer fails with `FailedToInitialize`, gives back screen and share, and tears down only if that share was the last |
| Render.Clear | citro3d/src/render.rs:178-185 | a clear forwards exactly the flag bits, colour and depth value to the native clear of this target and changes no ownership |
| Render.DropRenderTarget | citro3d/src/render.rs:100-107 | dropping a target issues exactly one native delete of its pointer, gives back its screen and its share, and tears down after the delete only if that share was the last |
| Citro3d.WithCmdbufSize | citro3d/src/lib.rs:95-105 | init success gives a pristine instance (every slot empty, no light env) holding a fresh anchor; failure gives `FailedToInitialize` and leaves the world as before apart from the init call |
| Citro3d.New | citro3d/src/lib.rs:85-87 | init with the default command-buffer size: success gives a pristine instance holding one share of an anchor never issued before; failure gives `FailedToInitialize` with only the init call recorded |
| Render.DropScreenTarget | citro3d/src/render.rs:25 | a passive target has no destructor of its own: dropping it deletes the wrapped native target first, then gives back one share and its screen, and appends the teardown exactly when that share was the last |
| Citro3d.CreateScreenTarget | citro3d/src/lib.rs:115-123 | the new passive target shares the instance's anchor (one more share). On failure no share is leaked, the screen is given back and no teardown runs. The error is `InvalidSize` exactly when a size does not fit, and `FailedToInitialize` otherwise |
| Citro3d.CreateScreenTargetFromRaw | citro3d/src/lib.rs:125-131 | a passive target over a non-null raw pointer with one more share; a null pointer gives `FailedToInitialize` and gives the screen back |
| Citro3d.SetRenderTarget | citro3d/src/lib.rs:202-211 | `Ok` exactly when draw-on returns true, otherwise `InvalidRenderTarget`; only the draw-on call is added |
| Citro3d.RenderToTarget | citro3d/src/lib.rs:141-167 | on success: frame-begin, draw-on, the scope exactly once on the activated target, then frame-end, with the scope's target handed back passive. On draw-on failure: `InvalidRenderTarget` and no frame-end; the targets the unused scope owns are dropped first, then the given target, giving back their shares and screens |
| Citro3d.SwapRenderTarget | citro3d/src/lib.rs:179-191 | on success the old target comes back passive and the new one active; on failure both inputs come back unchanged with the error |
| Citro3d.BindLightEnv | citro3d/src/lib.rs:304-322 | returns exactly the previously bound env and stores the new one; the native side is told null exactly when the new env is absent |
| Citro3d.GetTexEnv | citro3d/src/lib.rs:381-387 | the slot for the stage ends up filled with that stage's env. A filled slot is returned with nothing changed. An empty one is initialised with one native init call. Every other slot is untouched |
| Citro3d.DropInstance | citro3d/src/lib.rs:392-403 | dropping the instance drops its share; teardown runs only if no target still holds the anchor |
| InstanceFacts.RenderToTargetFrameBalance | citro3d/src/lib.rs:151-166 | if the scope issues no frame boundary, a frame scope begins exactly one frame, first; it ends it, last, exactly when draw-on succeeds |
| InstanceFacts.SwapRenderTargetRoundTrip | citro3d/src/lib.rs:179-191 | swapping back after a successful swap hands back the two wrappers it started with with the instance unchanged |
| InstanceFacts.SwapRenderTargetNoMixedState | citro3d/src/lib.rs:183-190 | both outcomes of a swap hand back the same two native targets, one active and one passive; which is active depends only on draw-on |
| InstanceFacts.BindLightEnvSequence | citro3d/src/lib.rs:304-322 | binding a then b returns a on the second call, and rebinding what a bind returned restores the instance |
| InstanceFacts.GetTexEnvIdempotent | citro3d/src/lib.rs:381-387 | a second request for the same stage changes nothing and returns the same env |
| InstanceFacts.GetTexEnvInits | citro3d/src/lib.rs:381-387 | one request initialises a stage exactly when it asks for that stage and the slot is empty |
| InstanceFacts.GetTexEnvsInitialiseOnce | citro3d/src/lib.rs:381-387 | over any sequence of requests each stage is initialised at most once: exactly when requested with its slot empty. Requested slots end up filled and the others are unchanged |
| Lifecycle.WithCmdbufSizeAccounted | citro3d/src/lib.rs:95-105 | init keeps the accounting; a successful one adds an instance on an anchor nobody else holds |
| Lifecycle.BorrowScreenAccounted | citro3d/src/lib.rs:413-415 | taking a free screen keeps the accounting, with the screen held loose until a target takes it |
| Lifecycle.CreateScreenTargetAccounted | citro3d/src/lib.rs:115-123 | creating a target keeps the accounting (the target joins the holders, or the screen is given back) and never tears down |
| Lifecycle.DropHolderAccounted | citro3d/src/lib.rs:392-403 | dropping any holder keeps the accounting for the rest, and teardown runs exactly when no remaining holder holds that anchor |
| Lifecycle.DropAllTearsDownOnceLast | citro3d/src/lib.rs:392-403 | whatever order the holders of one anchor are dropped in, the teardown runs exactly once and is the very last native call, after every target's delete |
| Lifecycle.SwapRenderTargetAccounted | citro3d/src/lib.rs:179-191 | a swap changes no ownership, whatever draw-on returns |
| Lifecycle.RenderToTargetFailureDrops | citro3d/src/lib.rs:151-158 | a failed draw-on leaves the opened frame followed by dropping, in order, each target the scope owns and then the given target (a scope owns only targets in this model) |
| Lifecycle.RenderToTargetFailureAccounted | citro3d/src/lib.rs:151-158 | after a failed draw-on the accounting holds for the remaining holders once the scope's targets and the given target are gone, and teardown ran exactly when one of the dropped targets' anchors is held by no remaining holder |
| Render.DropScreenTargets | citro3d/src/lib.rs:151-158 | dropping a sequence of targets gives back exactly their shares and screens, keeps the issue counter, and only appends deletes and teardowns, at least one call per target |
| Lifecycle.DropAllAccounted | citro3d/src/lib.rs:392-403 | dropping any suffix of the holders keeps the accounting for the rest, and a teardown happens exactly when some dropped holder's anchor is held by no remaining holder |
| Lifecycle.RenderToTargetSuccessAccounted | citro3d/src/lib.rs:160-166 | after the scope, ending the frame and handing the target back changes no ownership |
| Lifecycle.CreateScreenTargetFromRawAccounted | citro3d/src/lib.rs:125-131 | wrapping a raw target keeps the accounting: on success the target joins the holders, on failure the screen is given back and no native call is made |
| Lifecycle.SetRenderTargetAccounted | citro3d/src/lib.rs:202-211 | a draw-on request changes no ownership, whatever it returns |
| Lifecycle.ClearAccounted | citro3d/src/render.rs:181-185 | clearing a target changes no ownership |
| Lifecycle.BindLightEnvAccounted | citro3d/src/lib.rs:304-322 | rebinding the light env keeps the accounting with the updated instance in the holder's place |
| Lifecycle.GetTexEnvAccounted | citro3d/src/lib.rs:381-387 | fetching a combiner stage keeps the accounting with the updated instance in the holder's place |
| Scenario.SetupCalls | citro3d/src/lib.rs:413-423 | the test's setup yields an instance and two passive targets on the two screens, holding three shares of a fresh anchor, after exactly the init and the two create/set-output pairs |
| Scenario.FrameCalls | citro3d/src/lib.rs:425-432 | the test's frame scope swaps the roles of the two targets: begin, draw-on top, draw-on bottom, end |
| Scenario.DropsInOrder | citro3d/src/lib.rs:434-438 | dropping the instance first tears nothing down; the two deletes follow and the teardown comes only with the last drop |
| Scenario.FrameFailureDropsBoth | citro3d/src/lib.rs:425-432 | had draw-on failed in the test's frame, the scope's bottom target would be deleted before the top one, both shares and screens given back, and the frame left open |
| Scenario.RunFrameCalls | citro3d/src/lib.rs:425-438 | the frame and the drops give back every share and both screens |
| Scenario.SelectRenderTargetTearsDownOnce | citro3d/src/lib.rs:411-439 | the whole test makes exactly the expected calls, with one teardown and no other, and leaves shares and borrows as they were |
| Bytes.UnpackPack | citro2d/src/render.rs:21-24 | shifting and truncating the packed word recovers each of the four bytes |
| Bytes.PackUnpack | citro2d/src/render.rs:21-24 | every 32-bit word is the packing of its four bytes |
| Math.New | citro3d/src/math.rs:28-30 | the four getters of a new vector return its four inputs |
| Math.GettersReadBytes | citro3d/src/math.rs:34-45 | `x` reads bits 0-7, `y` bits 8-15, `z` bits 16-23 and `w` bits 24-31 of the word |
| Math.NewFromGetters | citro3d/src/math.rs:28-45 | packing what the getters read gives the vector back |
| Math.EqualIffGettersAgree | citro3d/src/math.rs:22-45 | two vectors are equal exactly when all four getters agree |
| Math.GettersOfNew | citro3d/src/math.rs:56-63 | the test's vector (1, 2, 3, 4) reads back 1, 2, 3, 4 |
| Color2d.NewWithAlpha | citro2d/src/render.rs:21-24 | a new colour carries r, g, b and a in the channels a reader of the word finds |
| Color2d.New | citro2d/src/render.rs:16-18 | an RGB colour has the given channels and alpha 255 |
| Color2d.NewIsOpaque | citro2d/src/render.rs:16-18 | `new(r, g, b)` is `new_with_alpha(r, g, b, 255)` |
| Color2d.NewWithAlphaInjective | citro2d/src/render.rs:21-24 | two colours are equal exactly when all four channels are |
| Color2d.NewWithAlphaOfChannels | citro2d/src/render.rs:21-24 | every colour is the packing of its own channels |
| Color2d.U32ConversionsRoundTrip | citro2d/src/render.rs:27-37 | `u32` to `Color` to `u32`, and `Color` to `u32` to `Color`, are both the identity |
| Color2d.ToU32Channels | citro2d/src/render.rs:21-37 | the word a colour converts to has r in bits 0-7, g in 8-15, b in 16-23 and a in 24-31 |
| Drawable.FromBool | citro2d/src/drawable.rs:38-43 | `true` gives `Success` and `false` gives `Failure`, and the byte representation is the bool's byte |
| Drawable.DiscriminantEncodesBool | citro2d/src/drawable.rs:8-12 | the discriminants 1 and 0 encode the native bool exactly: every status is the conversion of the bool its byte stands for |
| Drawable.FromOutput | citro2d/src/drawable.rs:18-20 | the law `branch(from_output(()))` is `Continue(())`: what `from_output` builds continues with the same output |
| Drawable.Branch | citro2d/src/drawable.rs:22-29 | a status continues exactly when it is `Success`, and otherwise breaks with `Failure` |
| Drawable.FromResidual | citro2d/src/drawable.rs:32-36 | the law `branch(from_residual(r))` is `Break(r)` exactly when `r` is `Failure`, and the rebuilt status continues exactly when `r` is `Success` |
| Drawable.TryRoundTrip | citro2d/src/drawable.rs:14-36 | `?` loses nothing: a continuing status is rebuilt by `from_output`, and a breaking one from its residual |
| Drawable.RunSteps | citro2d/src/drawable.rs:14-36 | a body of `?`-chained draw steps succeeds exactly when every step does; a failure stops at the first failing step |
| Drawable.RunStepsIgnoresAfterFailure | citro2d/src/drawable.rs:22-29 | steps after a failing prefix never change the outcome |

## Left out

- Citro3d.RenderToTarget: the scope closure may own only render targets (`captured`). A closure that owns a bare screen borrow or another instance would release it on the `?` exit at citro3d/src/lib.rs:156; the model does not drop those, so `RenderToTargetFailureDrops` and `RenderToTargetFailureAccounted` speak only of scope-owned targets.
- Native library internals: the frame, target, init and teardown calls are oracles and trace entries only. `IVec_Pack` is the byte packing its getters and its test imply.
- `C3D_FrameBegin` returns a value that the source ignores, so the model gives it no oracle.
- Rust lifetimes, `RefMut` borrow checking and `Pin`. A screen borrow is a screen id in the world's borrowed set. A pinned light env is a non-null address.
- Dropping a light env: one that a rebind hands back is returned to the caller, and one still bound when the instance drops goes with the instance's last field. The fields drop in declaration order (combiner slots, the queue share, then the light env, citro3d/src/lib.rs:61-65), so a bound env is dropped after the share and possibly after the teardown. Its destructor is not part of this model, so neither drop appears in the trace.
- The transfer-flags bit encoding: the transfer module is not part of this model, so the output call records the in-format and out-format themselves.
- The texture-combiner module and the crate's error module are not part of this model. A `TexEnv` is just its stage, and the errors are the three variants the core returns.
- `draw_arrays`, `draw_elements`, `bind_program`, uniform binding, and getting or setting buffer and attribute info: these are foreign copy and bind calls. The `i32` bound on the index count of `draw_elements` is not modelled.
- The `light_env` and `light_env_mut` getters: they only hand out references.
- The matrix, projection, vector and quaternion types of the math module: they are floating point and not shown.
- citro2d's `clear_with_color` and `render_2d_shape`, and the individual shape `render` bodies: they marshal floats into foreign draw calls. `RunSteps` models only their `?` chaining.
- `Debug` implementations.
- Scenario.SelectRenderTarget: every draw-on in the test succeeds. An `unwrap` that would panic during setup is modelled as `None`. The swap inside the frame scope is not given a failing case.

=== FILE: bytes.dfy ===
/** Four bytes packed into one 32-bit word, lowest byte first: the layout
    both the 2D colour type and the integer 4-vector use. */
module Bytes {

  /** `b0` in bits 0-7, `b1` in bits 8-15, `b2` in bits 16-23, `b3` in
      bits 24-31. */
  function Pack(b0: bv8, b1: bv8, b2: bv8, b3: bv8): bv32
  {
    (b0 as bv32) | ((b1 as bv32) << 8) | ((b2 as bv32) << 16) | ((b3 as bv32) << 24)
  }

  /** Truncation of a word to its low byte (an `as u8` cast). */
  function Low8(v: bv32): bv8
  {
    (v & 0xFF) as bv8
  }

  /** Shifting and truncating the packed word gives each byte back. */
  lemma UnpackPack(b0: bv8, b1: bv8, b2: bv8, b3: bv8)
    ensures Low8(Pack(b0, b1, b2, b3)) == b0
    ensures Low8(Pack(b0, b1, b2, b3) >> 8) == b1
    ensures Low8(Pack(b0, b1, b2, b3) >> 16) == b2
    ensures Low8(Pack(b0, b1, b2, b3) >> 24) == b3
  {
  }

  /** Every word is the packing of its four bytes. */
  lemma PackUnpack(v: bv32)
    ensures Pack(Low8(v), Low8(v >> 8), Low8(v >> 16), Low8(v >> 24)) == v
  {
  }
}

=== FILE: color.dfy ===
/** The 2D library's RGBA colour: one 32-bit word with red in the lowest
    byte and alpha in the highest. */
module Color2d {
  import opened Bytes

  datatype Color = Color(inner: bv32)

  /** The channels as a reader of the packed word finds them. */
  function Red(c: Color): bv8
  {
    Low8(c.inner)
  }

  function Green(c: Color): bv8
  {
    Low8(c.inner >> 8)
  }

  function Blue(c: Color): bv8
  {
    Low8(c.inner >> 16)
  }

  function Alpha(c: Color): bv8
  {
    Low8(c.inner >> 24)
  }

  /** `Color::new_with_alpha`: r in bits 0-7, g in 8-15, b in 16-23, a in 24-31. */
  function NewWithAlpha(r: bv8, g: bv8, b: bv8, a: bv8): (c: Color)
    ensures Red(c) == r && Green(c) == g && Blue(c) == b && Alpha(c) == a
  {
    UnpackPack(r, g, b, a);
    Color(Pack(r, g, b, a))
  }

  /** `Color::new`: the given channels, fully opaque. */
  function New(r: bv8, g: bv8, b: bv8): (c: Color)
    ensures Red(c) == r && Green(c) == g && Blue(c) == b && Alpha(c) == 0xFF
  {
    NewWithAlpha(r, g, b, 255)
  }

  /** `Color::new(r, g, b)` is `new_with_alpha(r, g, b, 255)`. */
  lemma NewIsOpaque(r: bv8, g: bv8, b: bv8)
    ensures New(r, g, b) == NewWithAlpha(r, g, b, 0xFF)
  {
  }

  /** Packing is one-to-one: distinct channel values give distinct colours. */
  lemma NewWithAlphaInjective(r: bv8, g: bv8, b: bv8, a: bv8, r': bv8, g': bv8, b': bv8, a': bv8)
    ensures NewWithAlpha(r, g, b, a) == NewWithAlpha(r', g', b', a') <==> r == r' && g == g' && b == b' && a == a'
  {
  }

  /** Every colour is the packing of its own channels. */
  lemma NewWithAlphaOfChannels(c: Color)
    ensures NewWithAlpha(Red(c), Green(c), Blue(c), Alpha(c)) == c
  {
    PackUnpack(c.inner);
  }

  /** `u32` into `Color`. */
  function FromU32(v: bv32): Color
  {
    Color(v)
  }

  /** `Color` into `u32`. */
  function ToU32(c: Color): bv32
  {
    c.inner
  }

  /** The two conversions are inverse to each other. */
  lemma U32ConversionsRoundTrip(v: bv32, c: Color)
    ensures ToU32(FromU32(v)) == v
    ensures FromU32(ToU32(c)) == c
  {
  }

  /** The word a colour converts to carries its channels in the packing's
      byte positions. */
  lemma ToU32Channels(r: bv8, g: bv8, b: bv8, a: bv8)
    ensures var v := ToU32(NewWithAlpha(r, g, b, a));
      Low8(v) == r && Low8(v >> 8) == g && Low8(v >> 16) == b && Low8(v >> 24) == a
  {
  }
}

=== FILE: drawable.dfy ===
/** The status a 2D drawable's `render` reports, and its `?` semantics:
    a failure stops the rest of a drawing sequence. */
module Drawable {

  datatype DrawableResult = Success | Failure

  /** The `u8` representation of each variant. */
  function Discriminant(r: DrawableResult): bv8
  {
    match r
    case Success => 1
    case Failure => 0
  }

  /** A native `bool` as a byte. */
  function BoolByte(b: bool): bv8
  {
    if b then 1 else 0
  }

  /** `From<bool>`: the native draw call's return value. */
  function FromBool(b: bool): (r: DrawableResult)
    ensures Discriminant(r) == BoolByte(b)
    ensures r == Success <==> b
  {
    if b then Success else Failure
  }

  /** The representation is exactly the native bool: converting a bool and
      reading the byte gives the bool's byte, and every status is the
      conversion of one bool. */
  lemma DiscriminantEncodesBool(r: DrawableResult)
    ensures FromBool(Discriminant(r) == 1) == r
    ensures exists b :: FromBool(b) == r
  {
    assert FromBool(r == Success) == r;
  }

  datatype ControlFlow<B, C> = Continue(output: C) | Break(residual: B)

  /** `Try::from_output`: the status it builds continues with the same
      output when branched on. */
  function FromOutput(u: ()): (r: DrawableResult)
    ensures Branch(r) == Continue(())
  {
    Success
  }

  /** `Try::branch`: success continues with `()`, failure breaks with itself. */
  function Branch(r: DrawableResult): (cf: ControlFlow<DrawableResult, ()>)
    ensures cf.Continue? <==> r == Success
    ensures cf.Break? ==> cf.residual == Failure
  {
    match r
    case Success => Continue(())
    case Failure => Break(Failure)
  }

  /** `FromResidual::from_residual`: a failing residual is rebuilt into a
      status that breaks with that same residual; a residual that is not a
      failure gives a status that continues. */
  function FromResidual(residual: DrawableResult): (r: DrawableResult)
    ensures Branch(r) == Break(residual) <==> residual == Failure
    ensures Branch(r).Continue? <==> residual == Success
  {
    residual
  }

  /** `?` loses nothing: a status that continues is rebuilt by
      `from_output`, and one that breaks is rebuilt from its residual. */
  lemma TryRoundTrip(r: DrawableResult)
    ensures match Branch(r)
      case Continue(u) => FromOutput(u) == r
      case Break(residual) => FromResidual(residual) == r
  {
  }

  /** What a sequence of steps produced, and how many of them ran. */
  datatype Run = Run(result: DrawableResult, ran: nat)

  /** A render body `{ step0?; step1?; ...; DrawableResult::from_output(()) }`
      where `outcomes[i]` is what native draw `i` would return. */
  function RunSteps(outcomes: seq<bool>): (r: Run)
    ensures r.ran <= |outcomes|
    ensures r.result == Success <==> forall i | 0 <= i < |outcomes| :: outcomes[i]
    ensures r.result == Success ==> r.ran == |outcomes|
    // a failure stops at the first failing step
    ensures r.result == Failure ==>
      && 0 < r.ran && !outcomes[r.ran - 1]
      && forall i | 0 <= i < r.ran - 1 :: outcomes[i]
  {
    if |outcomes| == 0 then Run(FromOutput(()), 0)
    else
      match Branch(FromBool(outcomes[0]))
      case Break(residual) => Run(FromResidual(residual), 1)
      case Continue(_) =>
        var rest := RunSteps(outcomes[1..]);
        Run(rest.result, rest.ran + 1)
  }

  /** Everything after the first failure is irrelevant: appending any steps
      after a failing prefix changes nothing. */
  lemma {:induction false} RunStepsIgnoresAfterFailure(prefix: seq<bool>, rest: seq<bool>)
    requires RunSteps(prefix).result == Failure
    ensures RunSteps(prefix + rest) == RunSteps(prefix)
  {
    if !prefix[0] {
      assert (prefix + rest)[0] == prefix[0];
    } else {
      assert (prefix + rest)[1..] == prefix[1..] + rest;
      RunStepsIgnoresAfterFailure(prefix[1..], rest);
    }
  }
}

=== FILE: errors.dfy ===
/** The error values the target lifecycle can report. */
module Errors {

  datatype Error =
    | FailedToInitialize    // native init failed, or a null target pointer
    | InvalidSize           // a width or height does not fit the native `int`
    | InvalidRenderTarget   // native draw-on refused the target
}

=== FILE: ffi.dfy ===
/** Raw native addresses as the bindings see them. */
module Ffi {

  /** A native address; the value 0 is the null pointer. */
  type Ptr = nat

  const Null: Ptr := 0
}

=== FILE: formats.dfy ===
/** The pure tables of the render module: which colour buffer a screen's
    framebuffer format asks for, how a depth format reaches the native
    create call, and the clear flags. */
module Formats {
  import opened Wrappers
  import opened Gfx

  /** Colour buffer formats the GPU renders into. */
  datatype ColorFormat = RGBA8 | RGB8 | RGBA5551 | RGB565 | RGBA4

  /** Bit widths of the red, green, blue and alpha channels of one pixel. */
  datatype Channels = Channels(r: nat, g: nat, b: nat, a: nat)

  /** Channel widths a framebuffer format names. */
  function FramebufferChannels(f: FramebufferFormat): Channels
  {
    match f
    case Rgba8 => Channels(8, 8, 8, 8)
    case Bgr8 => Channels(8, 8, 8, 0)
    case Rgb565 => Channels(5, 6, 5, 0)
    case Rgb5A1 => Channels(5, 5, 5, 1)
    case Rgba4 => Channels(4, 4, 4, 4)
  }

  /** Channel widths of a colour buffer format, as its documentation gives them. */
  function ColorChannels(c: ColorFormat): Channels
  {
    match c
    case RGBA8 => Channels(8, 8, 8, 8)
    case RGB8 => Channels(8, 8, 8, 0)
    case RGBA5551 => Channels(5, 5, 5, 1)
    case RGB565 => Channels(5, 6, 5, 0)
    case RGBA4 => Channels(4, 4, 4, 4)
  }

  /** The colour buffer a target on a screen with framebuffer format `f` uses.
      Every format keeps its channel widths; Bgr8 goes to RGB8, which only
      differs in channel order. */
  function ColorFormatFrom(f: FramebufferFormat): (c: ColorFormat)
    ensures ColorChannels(c) == FramebufferChannels(f)
  {
    match f
    case Rgba8 => RGBA8
    case Rgb565 => RGB565
    case Rgb5A1 => RGBA5551
    case Rgba4 => RGBA4
    case Bgr8 => RGB8
  }

  /** The mapping is the only one that keeps channel widths, and it is
      one-to-one: no two framebuffer formats share a colour buffer. */
  lemma ColorFormatFromUnique(f: FramebufferFormat, f': FramebufferFormat, c: ColorFormat)
    ensures ColorChannels(c) == FramebufferChannels(f) <==> c == ColorFormatFrom(f)
    ensures ColorFormatFrom(f) == ColorFormatFrom(f') <==> f == f'
  {
    match c
    case RGBA8 =>
    case RGB8 =>
    case RGBA5551 =>
    case RGB565 =>
    case RGBA4 =>
  }

  /** Depth buffer formats. */
  datatype DepthFormat = Depth16 | Depth24 | Depth24Stencil8

  /** The native code of a depth format (a `u8` enum). */
  function DepthCode(d: DepthFormat): (code: int)
    ensures 0 <= code < 256
  {
    match d
    case Depth16 => 0
    case Depth24 => 2
    case Depth24Stencil8 => 3
  }

  /** The native sentinel that stands for "no depth buffer". */
  const NoDepth: int := -1

  /** The depth argument of the native create call: the sentinel when no
      depth format is asked for, that format's code otherwise. */
  function DepthArg(d: Option<DepthFormat>): (arg: int)
    ensures arg == NoDepth <==> d.None?
    ensures d.Some? ==> arg == DepthCode(d.value)
  {
    match d
    case None => NoDepth
    case Some(f) => DepthCode(f)
  }

  /** Reads a depth argument back: what the native side sees. */
  function DepthFromArg(arg: int): Option<Option<DepthFormat>>
  {
    if arg == NoDepth then Some(None)
    else if arg == 0 then Some(Some(Depth16))
    else if arg == 2 then Some(Some(Depth24))
    else if arg == 3 then Some(Some(Depth24Stencil8))
    else None
  }

  /** The depth argument loses nothing: reading it back gives the request,
      so distinct requests reach the native side as distinct arguments. */
  lemma DepthArgRoundTrip(d: Option<DepthFormat>, d': Option<DepthFormat>)
    ensures DepthFromArg(DepthArg(d)) == Some(d)
    ensures DepthArg(d) == DepthArg(d') ==> d == d'
  {
    match d
    case None =>
    case Some(f) =>
      match f
      case Depth16 =>
      case Depth24 =>
      case Depth24Stencil8 =>
  }

  /** The bit set passed to the native clear call. */
  datatype ClearFlags = ClearFlags(bits: bv8)

  const ClearColor: ClearFlags := ClearFlags(1)
  const ClearDepth: ClearFlags := ClearFlags(2)
  const ClearAll: ClearFlags := ClearFlags(3)

  function Union(a: ClearFlags, b: ClearFlags): ClearFlags
  {
    ClearFlags(a.bits | b.bits)
  }

  /** The buffers a clear overwrites. */
  datatype Buffer = ColorBuffer | DepthBuffer

  /** Bit 0 selects the colour buffer, bit 1 the depth buffer; any other
      bit selects nothing. */
  function Cleared(f: ClearFlags): set<Buffer>
  {
    (if f.bits & 1 != 0 then {ColorBuffer} else {})
    + (if f.bits & 2 != 0 then {DepthBuffer} else {})
  }

  /** Flags combine as sets of buffers: the union of two flag sets clears
      exactly what either clears. */
  lemma ClearedUnion(a: ClearFlags, b: ClearFlags)
    ensures Cleared(Union(a, b)) == Cleared(a) + Cleared(b)
  {
    assert (a.bits | b.bits) & 1 != 0 <==> a.bits & 1 != 0 || b.bits & 1 != 0;
    assert (a.bits | b.bits) & 2 != 0 <==> a.bits & 2 != 0 || b.bits & 2 != 0;
  }

  /** ALL is COLOR together with DEPTH and clears both buffers; COLOR and
      DEPTH share no bit and each clears only its own buffer. */
  lemma ClearAllIsColorAndDepth()
    ensures ClearAll == Union(ClearColor, ClearDepth)
    ensures ClearColor.bits & ClearDepth.bits == 0
    ensures Cleared(ClearAll) == {ColorBuffer, DepthBuffer}
    ensures Cleared(ClearColor) == {ColorBuffer}
    ensures Cleared(ClearDepth) == {DepthBuffer}
  {
    ClearedUnion(ClearColor, ClearDepth);
  }

  /** Transfer settings of a target's output: pixel format read from the
      colour buffer and pixel format written to the screen. */
  datatype TransferFlags = TransferFlags(inFormat: ColorFormat, outFormat: ColorFormat)
}

=== FILE: gfx.dfy ===
/** The parts of the screen service a render target relies on: which screen
    it is, its native handle, the eye it drives and its framebuffer format. */
module Gfx {
  import opened Ffi

  /** The eye a screen's framebuffer is shown to (stereoscopic output). */
  datatype Side = Left | Right

  /** Pixel layouts a screen's framebuffer can have. */
  datatype FramebufferFormat = Rgba8 | Bgr8 | Rgb565 | Rgb5A1 | Rgba4

  type ScreenId = nat

  datatype Screen = Screen(id: ScreenId, handle: Ptr, side: Side, format: FramebufferFormat)
}

=== FILE: instance.dfy ===
/** The single `Instance` of the library: it holds a render-queue anchor,
    the lazily initialised texture-combiner slots and the bound light
    environment, and it opens frames and moves targets between the passive
    and the active state. */
module Citro3d {
  import opened Wrappers
  import opened Ffi
  import opened Gfx
  import opened Formats
  import opened Native
  import opened Errors
  import opened Render

  /** Number of texture-combiner stages. */
  const TexEnvCount: nat := 6

  type Stage = s: nat | s < TexEnvCount

  /** A texture-combiner stage's state, as initialised for its stage. */
  datatype TexEnv = TexEnv(stage: Stage)

  /** One slot per stage; a filled slot holds that stage's environment. */
  type TexEnvSlots = s: seq<Option<TexEnv>> | |s| == TexEnvCount && forall i | 0 <= i < |s| :: s[i].Some? ==> s[i].value.stage == i
    witness [None, None, None, None, None, None]

  /** A light environment, known by its pinned (never moving) address. */
  datatype LightEnv = LightEnv(addr: Ptr)

  type PinnedLightEnv = e: LightEnv | e.addr != Null witness LightEnv(1)

  datatype Instance = Instance(texenvs: TexEnvSlots, queue: QueueId, lightEnv: Option<PinnedLightEnv>)

  /** An operation on `&mut Instance`: the instance and world after it, and
      what it returns. */
  datatype Step<A> = Step(inst: Instance, world: World, value: A)

  /** Command-buffer size `Instance::new` asks for. */
  const DefaultCmdbufSize: Usize := 0x40000

  /** Frame-end flags the frame scope passes. */
  const FrameEndFlags: bv8 := 0

  /** No texture-combiner slot initialised and no light environment bound. */
  predicate Pristine(inst: Instance)
  {
    && (forall i | 0 <= i < TexEnvCount :: inst.texenvs[i].None?)
    && inst.lightEnv.None?
  }

  /** `Instance::with_cmdbuf_size`. `initOk` is what native init returns. */
  function WithCmdbufSize(w: World, size: Usize, initOk: bool): (r: Made<Instance>)
    ensures r.world.trace == w.trace + [Init(size)]
    ensures r.world.borrowed == w.borrowed
    ensures r.result.Ok? <==> initOk
    ensures initOk ==>
      && Pristine(r.result.value)
      && r.world.queues == w.queues + multiset{r.result.value.queue}
      && (QueuesIssued(w) ==> r.result.value.queue !in w.queues && QueuesIssued(r.world))
    // a failed init leaves the pre-init state apart from the recorded call
    ensures !initOk ==> r.result == Err(FailedToInitialize) && r.world == w.(trace := w.trace + [Init(size)])
  {
    var w1 := Emit(w, Init(size));
    if initOk then
      var (w2, q) := NewQueue(w1);
      Made(w2, Ok(Instance([None, None, None, None, None, None], q, None)))
    else
      Made(w1, Err(FailedToInitialize))
  }

  /** `Instance::new`: init with the default command-buffer size. */
  function New(w: World, initOk: bool): (r: Made<Instance>)
    ensures r.world.trace == w.trace + [Init(DefaultCmdbufSize)]
    ensures r.world.borrowed == w.borrowed
    ensures r.result.Ok? <==> initOk
    ensures initOk ==>
      && Pristine(r.result.value)
      && r.world.queues == w.queues + multiset{r.result.value.queue}
      && (QueuesIssued(w) ==> r.result.value.queue !in w.queues && QueuesIssued(r.world))
    ensures !initOk ==> r.result == Err(FailedToInitialize) && r.world == w.(trace := w.trace + [Init(DefaultCmdbufSize)])
  {
    WithCmdbufSize(w, DefaultCmdbufSize, initOk)
  }

  /** `Instance::create_screen_target`: a passive target sharing this
      instance's queue. `created` is what the native create call returns. */
  function CreateScreenTarget(inst: Instance, w: World, width: Usize, height: Usize, screen: Screen,
                              depth: Option<DepthFormat>, created: Ptr): (r: Made<ScreenTarget>)
    requires inst.queue in w.queues
    ensures r.result.Ok? <==> FitsCInt(width) && FitsCInt(height) && created != Null
    ensures r.result.Ok? ==>
      && r.result.value == ScreenTarget(RenderTarget(created, screen, inst.queue))
      && r.world.queues == w.queues + multiset{inst.queue}
      && r.world.borrowed == w.borrowed
      && r.world.trace == w.trace + CreateCalls(width, height, screen, depth, created)
    // a failure leaks no queue holder, tears nothing down and releases the screen
    ensures r.result.Err? ==>
      && r.world.queues == w.queues
      && r.world.borrowed == w.borrowed - {screen.id}
      && r.world.trace == w.trace + (if r.result.error == InvalidSize then []
                                     else [CreateCalls(width, height, screen, depth, created)[0]])
    ensures r.result.Err? ==> (r.result.error == InvalidSize <==> !(FitsCInt(width) && FitsCInt(height)))
    ensures r.result.Err? && FitsCInt(width) && FitsCInt(height) ==> r.result.error == FailedToInitialize
    ensures r.world.nextQueue == w.nextQueue
  {
    NewScreenTarget(CloneQueue(w, inst.queue), width, height, screen, depth, inst.queue, created)
  }

  /** `Instance::create_screen_target_from_raw`. */
  function CreateScreenTargetFromRaw(inst: Instance, w: World, raw: Ptr, screen: Screen): (r: Made<ScreenTarget>)
    requires inst.queue in w.queues
    ensures r.result.Ok? <==> raw != Null
    ensures r.result.Ok? ==>
      && r.result.value == ScreenTarget(RenderTarget(raw, screen, inst.queue))
      && r.world == w.(queues := w.queues + multiset{inst.queue})
    ensures r.result.Err? ==>
      && r.result.error == FailedToInitialize
      && r.world == w.(borrowed := w.borrowed - {screen.id})
  {
    ScreenTargetFromRaw(CloneQueue(w, inst.queue), raw, screen, inst.queue)
  }

  /** `Instance::set_render_target`: asks the native side to draw on the
      target. `drawOnOk` is what native draw-on returns. Nothing but the
      trace changes. */
  function SetRenderTarget(inst: Instance, w: World, target: ScreenTarget, drawOnOk: bool): (r: Step<Result<(), Error>>)
    ensures r.value.Ok? <==> drawOnOk
    ensures r.value.Err? ==> r.value.error == InvalidRenderTarget
    ensures r.inst == inst
    ensures r.world == w.(trace := w.trace + [FrameDrawOn(target.inner.raw)])
  {
    var w1 := Emit(w, FrameDrawOn(target.inner.raw));
    Step(inst, w1, if drawOnOk then Ok(()) else Err(InvalidRenderTarget))
  }

  /** The world a frame scope starts in: frame begun, draw-on issued. */
  function Opened(w: World, st: ScreenTarget): World
  {
    w.(trace := w.trace + [FrameBegin(FrameSyncDraw), FrameDrawOn(st.inner.raw)])
  }

  /** `Instance::render_to_target`. The frame scope `f` receives the
      instance, the world and the activated target and hands back an active
      target and a value. `captured` are the targets the scope owns by move
      (the closure's captures), in the order the closure drops them. */
  function RenderToTarget<T>(inst: Instance, w: World, st: ScreenTarget, drawOnOk: bool,
                             f: (Instance, World, RenderTarget) -> Step<(RenderTarget, T)>,
                             captured: seq<ScreenTarget>): (r: Step<Result<(ScreenTarget, T), Error>>)
    requires TargetQueues(captured + [st]) <= w.queues
    // success: begin, draw-on, the scope exactly once on the activated target, end
    ensures drawOnOk ==>
      var o := f(inst, Opened(w, st), IntoInner(st));
      && r.value == Ok((FromRenderTarget(o.value.0), o.value.1))
      && r.inst == o.inst
      && r.world == o.world.(trace := o.world.trace + [FrameEnd(FrameEndFlags)])
    // draw-on refused: the error comes back, the unused scope is dropped
    // with what it owns and then the given target, and no frame-end is issued
    ensures !drawOnOk ==>
      && r.value == Err(InvalidRenderTarget)
      && r.inst == inst
      && r.world == DropScreenTargets(Opened(w, st), captured + [st])
      && r.world.queues == w.queues - TargetQueues(captured + [st])
      && r.world.borrowed == w.borrowed - TargetScreens(captured + [st])
  {
    var w1 := Emit(w, FrameBegin(FrameSyncDraw));
    var s := SetRenderTarget(inst, w1, st, drawOnOk);
    assert s.world == Opened(w, st);
    match s.value
    case Err(e) =>
      Step(s.inst, DropScreenTargets(s.world, captured + [st]), Err(e))
    case Ok(_) =>
      var o := f(s.inst, s.world, IntoInner(st));
      var w2 := Emit(o.world, FrameEnd(FrameEndFlags));
      Step(o.inst, w2, Ok((FromRenderTarget(o.value.0), o.value.1)))
  }

  /** What swapping gives back: the old target made passive and the new one
      made active, or both inputs untouched with the error. */
  type SwapResult = Result<(ScreenTarget, RenderTarget), (RenderTarget, ScreenTarget, Error)>

  /** `Instance::swap_render_target`: all or nothing. */
  function SwapRenderTarget(inst: Instance, w: World, outgoing: RenderTarget, incoming: ScreenTarget, drawOnOk: bool): (r: Step<SwapResult>)
    ensures r.value.Ok? <==> drawOnOk
    ensures r.value.Ok? ==> r.value.value == (FromRenderTarget(outgoing), IntoInner(incoming))
    ensures r.value.Err? ==> r.value.error == (outgoing, incoming, InvalidRenderTarget)
    ensures r.inst == inst
    ensures r.world == w.(trace := w.trace + [FrameDrawOn(incoming.inner.raw)])
  {
    var s := SetRenderTarget(inst, w, incoming, drawOnOk);
    match s.value
    case Ok(_) => Step(s.inst, s.world, Ok((FromRenderTarget(outgoing), IntoInner(incoming))))
    case Err(e) => Step(s.inst, s.world, Err((outgoing, incoming, e)))
  }

  /** The address the native side is told for an optional light environment. */
  function LightEnvAddr(env: Option<PinnedLightEnv>): Ptr
  {
    match env
    case None => Null
    case Some(e) => e.addr
  }

  /** `Instance::bind_light_env`: installs `newEnv`, returns the previous
      one, and tells the native side the pinned address (null for none). */
  function BindLightEnv(inst: Instance, w: World, newEnv: Option<PinnedLightEnv>): (r: Step<Option<PinnedLightEnv>>)
    ensures r.value == inst.lightEnv
    ensures r.inst == inst.(lightEnv := newEnv)
    ensures r.world == w.(trace := w.trace + [LightEnvBind(LightEnvAddr(newEnv))])
    ensures LightEnvAddr(newEnv) == Null <==> newEnv.None?
  {
    var previous := inst.lightEnv;
    var i1 := inst.(lightEnv := newEnv);
    Step(i1, Emit(w, LightEnvBind(LightEnvAddr(i1.lightEnv))), previous)
  }

  /** `Instance::texenv`: the slot's environment, initialised on first use. */
  function GetTexEnv(inst: Instance, w: World, stage: Stage): (r: Step<TexEnv>)
    ensures r.value.stage == stage
    ensures r.inst.texenvs[stage] == Some(r.value)
    ensures inst.texenvs[stage].Some? ==> r.value == inst.texenvs[stage].value && r.inst == inst && r.world == w
    ensures inst.texenvs[stage].None? ==> r.world == w.(trace := w.trace + [TexEnvInit(stage)])
    ensures forall i | 0 <= i < TexEnvCount && i != stage :: r.inst.texenvs[i] == inst.texenvs[i]
    ensures r.inst.queue == inst.queue && r.inst.lightEnv == inst.lightEnv
  {
    match inst.texenvs[stage]
    case Some(env) => Step(inst, w, env)
    case None =>
      var env := TexEnv(stage);
      Step(inst.(texenvs := inst.texenvs[stage := Some(env)]), Emit(w, TexEnvInit(stage)), env)
  }

  /** Dropping the instance drops its queue holder; teardown runs only if no
      target still holds the queue. */
  function DropInstance(inst: Instance, w: World): (w': World)
    requires inst.queue in w.queues
    ensures w'.queues == w.queues - multiset{inst.queue}
    ensures w'.trace == w.trace + (if w.queues[inst.queue] == 1 then [Fini] else [])
    ensures w'.borrowed == w.borrowed && w'.nextQueue == w.nextQueue
  {
    ReleaseQueue(w, inst.queue)
  }
}

=== FILE: instance_facts.dfy ===
/** Properties of the instance operations that relate several calls: frame
    balance of the frame scope, swapping back, rebinding light
    environments, and initialising each texture-combiner slot at most once. */
module InstanceFacts {
  import opened Wrappers
  import opened Ffi
  import opened Native
  import opened Errors
  import opened Render
  import opened Citro3d

  /** No frame boundary among `calls`. */
  predicate NoFrameBoundary(calls: seq<Call>)
  {
    forall i | 0 <= i < |calls| :: !calls[i].FrameBegin? && !calls[i].FrameEnd?
  }

  /** The scope run by `RenderToTarget` only appends calls, none of them a
      frame boundary. */
  predicate ScopeOpensNoFrame<T>(inst: Instance, w: World, st: ScreenTarget,
                                 f: (Instance, World, RenderTarget) -> Step<(RenderTarget, T)>)
  {
    var e := Opened(w, st).trace;
    var t := f(inst, Opened(w, st), IntoInner(st)).world.trace;
    |e| <= |t| && t[..|e|] == e && NoFrameBoundary(t[|e|..])
  }

  /** A frame scope begins exactly one frame, first; it ends it, last, when
      draw-on succeeds; when draw-on fails it issues no frame-end at all. */
  lemma RenderToTargetFrameBalance<T>(inst: Instance, w: World, st: ScreenTarget, drawOnOk: bool,
                                      f: (Instance, World, RenderTarget) -> Step<(RenderTarget, T)>,
                                      captured: seq<ScreenTarget>)
    requires TargetQueues(captured + [st]) <= w.queues
    requires ScopeOpensNoFrame(inst, w, st, f)
    ensures var t := RenderToTarget(inst, w, st, drawOnOk, f, captured).world.trace;
      && |w.trace| + 3 <= |t| && t[..|w.trace|] == w.trace
      && t[|w.trace|] == FrameBegin(FrameSyncDraw)
      && t[|w.trace| + 1] == FrameDrawOn(st.inner.raw)
      && (forall i | |w.trace| < i < |t| :: !t[i].FrameBegin?)
      && (forall i | |w.trace| <= i < |t| - 1 :: !t[i].FrameEnd?)
      && (t[|t| - 1] == FrameEnd(FrameEndFlags) <==> drawOnOk)
  {
    var r := RenderToTarget(inst, w, st, drawOnOk, f, captured);
    var e := Opened(w, st);
    var n := |w.trace|;
    if drawOnOk {
      var o := f(inst, e, IntoInner(st));
      var t := r.world.trace;
      assert t == o.world.trace + [FrameEnd(FrameEndFlags)];
      assert t[..n] == w.trace by {
        assert o.world.trace[..|e.trace|] == e.trace;
      }
      forall i | n < i < |t|
        ensures !t[i].FrameBegin?
      {
        if i >= |e.trace| && i < |t| - 1 {
          assert t[i] == o.world.trace[|e.trace|..][i - |e.trace|];
        }
      }
      forall i | n <= i < |t| - 1
        ensures !t[i].FrameEnd?
      {
        if i >= |e.trace| {
          assert t[i] == o.world.trace[|e.trace|..][i - |e.trace|];
        }
      }
    } else {
      FailedFrameCalls(e, captured + [st], w.trace, st.inner.raw);
    }
  }

  /** The calls of a frame whose draw-on failed: begin and draw-on, then at
      least one drop call, and only drop calls. */
  lemma FailedFrameCalls(e: World, ts: seq<ScreenTarget>, t0: seq<Call>, raw: Ptr)
    requires e.trace == t0 + [FrameBegin(FrameSyncDraw), FrameDrawOn(raw)]
    requires |ts| > 0 && TargetQueues(ts) <= e.queues
    ensures var t := DropScreenTargets(e, ts).trace;
      && |t0| + 3 <= |t| && t[..|t0|] == t0
      && t[|t0|] == FrameBegin(FrameSyncDraw)
      && t[|t0| + 1] == FrameDrawOn(raw)
      && (forall i | |t0| < i < |t| :: !t[i].FrameBegin?)
      && (forall i | |t0| <= i < |t| :: !t[i].FrameEnd?)
  {
    var t := DropScreenTargets(e, ts).trace;
    var n := |t0|;
    assert t[..n] == t0 by {
      assert t[..n] == t[..|e.trace|][..n];
    }
    assert t[n] == t[..|e.trace|][n] && t[n + 1] == t[..|e.trace|][n + 1];
    forall i | n <= i < |t|
      ensures !t[i].FrameBegin? || i == n
      ensures !t[i].FrameEnd?
    {
      if i < |e.trace| {
        assert t[i] == t[..|e.trace|][i];
      }
    }
  }

  /** Swapping back after a successful swap hands back the two
      wrappers and leaves the instance as it was. */
  lemma SwapRenderTargetRoundTrip(inst: Instance, w: World, a: RenderTarget, b: ScreenTarget)
    ensures var r1 := SwapRenderTarget(inst, w, a, b, true);
      && r1.value.Ok?
      && var r2 := SwapRenderTarget(r1.inst, r1.world, r1.value.value.1, r1.value.value.0, true);
      && r2.value == Ok((b, a))
      && r2.inst == inst
      && r2.world.trace == w.trace + [FrameDrawOn(b.inner.raw), FrameDrawOn(a.raw)]
  {
    var r1 := SwapRenderTarget(inst, w, a, b, true);
    IntoInnerFromRenderTargetInverse(b, a);
    var r2 := SwapRenderTarget(r1.inst, r1.world, r1.value.value.1, r1.value.value.0, true);
    assert r2.world.trace == w.trace + [FrameDrawOn(b.inner.raw)] + [FrameDrawOn(a.raw)];
  }

  /** Both outcomes of a swap hand back the same two native targets, one
      active and one passive: which is active depends only on draw-on. */
  lemma SwapRenderTargetNoMixedState(inst: Instance, w: World, a: RenderTarget, b: ScreenTarget, drawOnOk: bool)
    ensures var v := SwapRenderTarget(inst, w, a, b, drawOnOk).value;
      && (v.Ok? ==> v.value.0.inner == a && v.value.1 == b.inner)
      && (v.Err? ==> v.error.0 == a && v.error.1.inner == b.inner)
      && (v.Ok? <==> drawOnOk)
  {
  }

  /** Binding `a` then `b` returns `a` on the second call; rebinding what a
      bind returned restores the instance. */
  lemma BindLightEnvSequence(inst: Instance, w: World, a: Option<PinnedLightEnv>, b: Option<PinnedLightEnv>)
    ensures var r1 := BindLightEnv(inst, w, a);
      var r2 := BindLightEnv(r1.inst, r1.world, b);
      && r1.value == inst.lightEnv && r2.value == a && r2.inst.lightEnv == b
      && r2.world.trace == w.trace + [LightEnvBind(LightEnvAddr(a)), LightEnvBind(LightEnvAddr(b))]
    ensures var r1 := BindLightEnv(inst, w, a);
      BindLightEnv(r1.inst, r1.world, r1.value).inst == inst
  {
    var r1 := BindLightEnv(inst, w, a);
    var r2 := BindLightEnv(r1.inst, r1.world, b);
    assert r2.world.trace == w.trace + [LightEnvBind(LightEnvAddr(a))] + [LightEnvBind(LightEnvAddr(b))];
  }

  /** A second request for the same stage changes nothing and returns the
      same environment. */
  lemma GetTexEnvIdempotent(inst: Instance, w: World, stage: Stage)
    ensures var r1 := GetTexEnv(inst, w, stage);
      GetTexEnv(r1.inst, r1.world, stage) == r1
  {
  }

  /** Requests the environments of `stages` in order. */
  function GetTexEnvs(inst: Instance, w: World, stages: seq<Stage>): (r: Step<seq<TexEnv>>)
    ensures |w.trace| <= |r.world.trace| && r.world.trace[..|w.trace|] == w.trace
  {
    if |stages| == 0 then Step(inst, w, [])
    else
      var r := GetTexEnvs(inst, w, stages[..|stages| - 1]);
      var last := GetTexEnv(r.inst, r.world, stages[|stages| - 1]);
      Step(last.inst, last.world, r.value + [last.value])
  }

  /** Number of initialisations of stage `s` among `calls`. */
  function InitsOf(calls: seq<Call>, s: nat): nat
  {
    if |calls| == 0 then 0
    else InitsOf(calls[..|calls| - 1], s) + (if calls[|calls| - 1] == TexEnvInit(s) then 1 else 0)
  }

  lemma InitsOfAppend(a: seq<Call>, b: seq<Call>, s: nat)
    ensures InitsOf(a + b, s) == InitsOf(a, s) + InitsOf(b, s)
    decreases |b|
  {
    if |b| > 0 {
      assert (a + b)[..|a + b| - 1] == a + b[..|b| - 1];
      InitsOfAppend(a, b[..|b| - 1], s);
    } else {
      assert a + b == a;
    }
  }

  /** One request initialises stage `s` once exactly when it asks for `s`
      and that slot is empty. */
  lemma GetTexEnvInits(inst: Instance, w: World, stage: Stage, s: Stage)
    ensures var r := GetTexEnv(inst, w, stage);
      && |w.trace| <= |r.world.trace| && r.world.trace[..|w.trace|] == w.trace
      && InitsOf(r.world.trace[|w.trace|..], s) == (if s == stage && inst.texenvs[stage].None? then 1 else 0)
  {
    var r := GetTexEnv(inst, w, stage);
    if inst.texenvs[stage].None? {
      assert r.world.trace[|w.trace|..] == [TexEnvInit(stage)];
      assert [TexEnvInit(stage)][..0] == [];
    } else {
      assert r.world.trace[|w.trace|..] == [];
    }
  }

  /** Over any sequence of requests, each stage is initialised at most once:
      exactly when it is requested and its slot started empty. Afterwards
      every requested slot is filled and the others are as they were. */
  lemma {:induction false} GetTexEnvsInitialiseOnce(inst: Instance, w: World, stages: seq<Stage>, s: Stage)
    ensures var r := GetTexEnvs(inst, w, stages);
      && InitsOf(r.world.trace[|w.trace|..], s) == (if s in stages && inst.texenvs[s].None? then 1 else 0)
      && (s in stages ==> r.inst.texenvs[s].Some?)
      && (s !in stages ==> r.inst.texenvs[s] == inst.texenvs[s])
      && |r.value| == |stages|
  {
    if |stages| > 0 {
      var front := stages[..|stages| - 1];
      var last := stages[|stages| - 1];
      var r0 := GetTexEnvs(inst, w, front);
      GetTexEnvsInitialiseOnce(inst, w, front, s);
      var r1 := GetTexEnv(r0.inst, r0.world, last);
      GetTexEnvInits(r0.inst, r0.world, last, s);
      var n := |w.trace|;
      var m := |r0.world.trace|;
      var t := r1.world.trace;
      assert t[n..] == t[n..m] + t[m..];
      assert t[n..m] == r0.world.trace[n..];
      InitsOfAppend(t[n..m], t[m..], s);
      assert s in stages <==> s in front || s == last;
    } else {
      assert w.trace[|w.trace|..] == [];
    }
  }
}

=== FILE: lifecycle.dfy ===
/** Ownership accounting across the instance and its targets. Every live
    instance and every live target holds the render-queue anchor it was
    made with; each target also holds one screen borrow. The accounting
    invariant ties those holders to the world's counts, and the lemmas show
    that every operation keeps it, that screens stay exclusive, and that the
    native teardown runs exactly once, after the last holder is gone,
    whatever order the holders are dropped in. */
module Lifecycle {
  import opened Wrappers
  import opened Ffi
  import opened Gfx
  import opened Formats
  import opened Native
  import opened Errors
  import opened Render
  import opened Citro3d

  /** A live value holding a share of a render-queue anchor. */
  datatype Holder = Inst(inst: Instance) | Target(target: RenderTarget)

  function QueueOf(h: Holder): QueueId
  {
    match h
    case Inst(i) => i.queue
    case Target(t) => t.queue
  }

  /** The anchors the holders hold, one entry per holder. */
  function Queues(hs: seq<Holder>): multiset<QueueId>
  {
    if |hs| == 0 then multiset{} else multiset{QueueOf(hs[0])} + Queues(hs[1..])
  }

  /** The screens the live targets among `hs` hold. */
  function Screens(hs: seq<Holder>): set<ScreenId>
  {
    set i | 0 <= i < |hs| && hs[i].Target? :: hs[i].target.screen.id
  }

  /** No two live targets hold the same screen. */
  predicate ScreensExclusive(hs: seq<Holder>)
  {
    forall i, j | 0 <= i < |hs| && 0 <= j < |hs| && i != j && hs[i].Target? && hs[j].Target? ::
      hs[i].target.screen.id != hs[j].target.screen.id
  }

  /** Every live target wraps a non-null native target. */
  predicate TargetsNonNull(hs: seq<Holder>)
  {
    forall i | 0 <= i < |hs| && hs[i].Target? :: hs[i].target.raw != Null
  }

  /** The world's counts are exactly what the holders `hs` and the screen
      borrows `loose` (taken but not yet given to a target) account for. */
  predicate Accounted(w: World, hs: seq<Holder>, loose: set<ScreenId>)
  {
    && w.queues == Queues(hs)
    && QueuesIssued(w)
    && ScreensExclusive(hs)
    && Screens(hs) !! loose
    && w.borrowed == Screens(hs) + loose
    && TargetsNonNull(hs)
  }

  /** `hs` without its `k`-th holder. */
  function Without(hs: seq<Holder>, k: nat): seq<Holder>
    requires k < |hs|
  {
    hs[..k] + hs[k + 1..]
  }

  lemma {:induction false} QueuesAppend(a: seq<Holder>, b: seq<Holder>)
    ensures Queues(a + b) == Queues(a) + Queues(b)
  {
    if |a| > 0 {
      assert (a + b)[1..] == a[1..] + b;
      QueuesAppend(a[1..], b);
    } else {
      assert a + b == b;
    }
  }

  lemma MultisetShuffle(p: multiset<QueueId>, q: multiset<QueueId>, r: multiset<QueueId>)
    ensures p + (q + r) == (p + r) + q
  {
  }

  lemma QueuesSplit(a: seq<Holder>, h: Holder, b: seq<Holder>)
    ensures Queues(a + ([h] + b)) == Queues(a + b) + multiset{QueueOf(h)}
  {
    QueuesAppend(a, [h] + b);
    QueuesAppend(a, b);
    assert ([h] + b)[1..] == b;
    MultisetShuffle(Queues(a), multiset{QueueOf(h)}, Queues(b));
  }

  lemma QueuesWithout(hs: seq<Holder>, k: nat)
    requires k < |hs|
    ensures Queues(hs) == Queues(Without(hs, k)) + multiset{QueueOf(hs[k])}
  {
    SplitAt(hs, k);
    QueuesSplit(hs[..k], hs[k], hs[k + 1..]);
  }

  lemma SplitAt(hs: seq<Holder>, k: nat)
    requires k < |hs|
    ensures hs == hs[..k] + ([hs[k]] + hs[k + 1..])
  {
    assert hs[k..] == [hs[k]] + hs[k + 1..];
    assert hs == hs[..k] + hs[k..];
  }

  lemma QueuesSnoc(hs: seq<Holder>, h: Holder)
    ensures Queues(hs + [h]) == Queues(hs) + multiset{QueueOf(h)}
  {
    QueuesAppend(hs, [h]);
    assert [h][1..] == [];
  }

  /** Every holder's anchor is among the holders' anchors. */
  lemma HolderQueueIn(hs: seq<Holder>, k: nat)
    requires k < |hs|
    ensures QueueOf(hs[k]) in Queues(hs)
  {
    QueuesWithout(hs, k);
  }

  /** Init keeps the accounting; a successful one adds an instance whose
      anchor nobody else holds. */
  lemma WithCmdbufSizeAccounted(w: World, hs: seq<Holder>, loose: set<ScreenId>, size: Usize, initOk: bool)
    requires Accounted(w, hs, loose)
    ensures var m := WithCmdbufSize(w, size, initOk);
      && (initOk ==> Accounted(m.world, hs + [Inst(m.result.value)], loose)
                     && m.world.queues[m.result.value.queue] == 1)
      && (!initOk ==> Accounted(m.world, hs, loose))
  {
    var m := WithCmdbufSize(w, size, initOk);
    if initOk {
      var h := Inst(m.result.value);
      QueuesSnoc(hs, h);
      assert Screens(hs + [h]) == Screens(hs) by {
        forall id | id in Screens(hs + [h]) ensures id in Screens(hs) {
          var i :| 0 <= i < |hs + [h]| && (hs + [h])[i].Target? && (hs + [h])[i].target.screen.id == id;
          assert i < |hs|;
          assert hs[i] == (hs + [h])[i];
        }
        forall id | id in Screens(hs) ensures id in Screens(hs + [h]) {
          var i :| 0 <= i < |hs| && hs[i].Target? && hs[i].target.screen.id == id;
          assert (hs + [h])[i] == hs[i];
        }
      }
    }
  }

  /** Taking a free screen's borrow keeps the accounting with that screen
      loose; a borrowed screen cannot be taken again. */
  lemma BorrowScreenAccounted(w: World, hs: seq<Holder>, loose: set<ScreenId>, id: ScreenId)
    requires Accounted(w, hs, loose)
    ensures BorrowScreen(w, id).Some? ==> Accounted(BorrowScreen(w, id).value, hs, loose + {id})
    ensures id in loose || id in Screens(hs) ==> BorrowScreen(w, id).None?
  {
  }

  lemma ScreensSnocTarget(hs: seq<Holder>, t: RenderTarget)
    ensures Screens(hs + [Target(t)]) == Screens(hs) + {t.screen.id}
  {
    var hs' := hs + [Target(t)];
    forall id | id in Screens(hs') ensures id in Screens(hs) + {t.screen.id} {
      var i :| 0 <= i < |hs'| && hs'[i].Target? && hs'[i].target.screen.id == id;
      if i < |hs| { assert hs[i] == hs'[i]; }
    }
    forall id | id in Screens(hs) ensures id in Screens(hs') {
      var i :| 0 <= i < |hs| && hs[i].Target? && hs[i].target.screen.id == id;
      assert hs'[i] == hs[i];
    }
    assert hs'[|hs|] == Target(t);
  }

  lemma ExclusiveSnoc(hs: seq<Holder>, t: RenderTarget)
    requires ScreensExclusive(hs) && t.screen.id !in Screens(hs)
    ensures ScreensExclusive(hs + [Target(t)])
  {
    var hs' := hs + [Target(t)];
    forall i, j | 0 <= i < |hs'| && 0 <= j < |hs'| && i != j && hs'[i].Target? && hs'[j].Target?
      ensures hs'[i].target.screen.id != hs'[j].target.screen.id
    {
      if i < |hs| && j < |hs| {
        assert hs'[i] == hs[i] && hs'[j] == hs[j];
      } else if i < |hs| {
        assert hs'[i] == hs[i];
        assert hs'[i].target.screen.id in Screens(hs);
      } else {
        assert hs'[j] == hs[j];
        assert hs'[j].target.screen.id in Screens(hs);
      }
    }
  }

  lemma NonNullSnoc(hs: seq<Holder>, t: RenderTarget)
    requires TargetsNonNull(hs) && t.raw != Null
    ensures TargetsNonNull(hs + [Target(t)])
  {
    var hs' := hs + [Target(t)];
    forall i | 0 <= i < |hs'| && hs'[i].Target? ensures hs'[i].target.raw != Null {
      if i < |hs| { assert hs'[i] == hs[i]; }
    }
  }

  /** A new target on a loose screen, sharing a live anchor, joins the
      holders. */
  lemma AddTargetAccounted(w: World, hs: seq<Holder>, loose: set<ScreenId>, t: RenderTarget, w': World)
    requires Accounted(w, hs, loose)
    requires t.screen.id in loose && t.raw != Null && t.queue in w.queues
    requires w'.queues == w.queues + multiset{t.queue}
    requires w'.borrowed == w.borrowed && w'.nextQueue == w.nextQueue
    ensures Accounted(w', hs + [Target(t)], loose - {t.screen.id})
  {
    QueuesSnoc(hs, Target(t));
    ScreensSnocTarget(hs, t);
    ExclusiveSnoc(hs, t);
    NonNullSnoc(hs, t);
  }

  /** Creating a target never tears down: its calls are at most the
      create and set-output calls, and the instance still holds the anchor. */
  lemma CreateScreenTargetNoFini(inst: Instance, w: World, width: Usize, height: Usize, screen: Screen,
                                 depth: Option<DepthFormat>, created: Ptr)
    requires inst.queue in w.queues
    ensures CountFini(CreateScreenTarget(inst, w, width, height, screen, depth, created).world.trace) == CountFini(w.trace)
  {
    var m := CreateScreenTarget(inst, w, width, height, screen, depth, created);
    var calls := m.world.trace[|w.trace|..];
    assert m.world.trace == w.trace + calls;
    CountFiniAppend(w.trace, calls);
    if m.result.Ok? {
      assert calls == CreateCalls(width, height, screen, depth, created);
      assert calls[..1][..0] == [];
    } else if m.result.error == InvalidSize {
      assert calls == [];
    } else {
      assert calls[..0] == [];
    }
  }

  /** Creating a target on a loose screen through the `k`-th holder (an
      instance) keeps the accounting: on success the new target joins the
      holders with that screen; on failure the screen is given back. No
      teardown runs either way. */
  lemma CreateScreenTargetAccounted(w: World, hs: seq<Holder>, loose: set<ScreenId>, k: nat,
                                    width: Usize, height: Usize, screen: Screen,
                                    depth: Option<DepthFormat>, created: Ptr)
    requires Accounted(w, hs, loose)
    requires k < |hs| && hs[k].Inst?
    requires screen.id in loose
    ensures hs[k].inst.queue in w.queues
    ensures var m := CreateScreenTarget(hs[k].inst, w, width, height, screen, depth, created);
      && (m.result.Ok? ==> Accounted(m.world, hs + [Target(m.result.value.inner)], loose - {screen.id}))
      && (m.result.Err? ==> Accounted(m.world, hs, loose - {screen.id}))
      && CountFini(m.world.trace) == CountFini(w.trace)
  {
    HolderQueueIn(hs, k);
    var inst := hs[k].inst;
    var m := CreateScreenTarget(inst, w, width, height, screen, depth, created);
    CreateScreenTargetNoFini(inst, w, width, height, screen, depth, created);
    if m.result.Ok? {
      AddTargetAccounted(w, hs, loose, m.result.value.inner, m.world);
    } else {
      assert m.world.borrowed == Screens(hs) + (loose - {screen.id});
    }
  }

  /** Dropping holder `k` (an instance or a target) gives the world of the
      remaining holders. */
  function DropHolder(w: World, h: Holder): (w': World)
    requires QueueOf(h) in w.queues
    ensures w'.queues == w.queues - multiset{QueueOf(h)}
    ensures w'.nextQueue == w.nextQueue
    ensures |w.trace| <= |w'.trace| && w'.trace[..|w.trace|] == w.trace
    ensures w'.trace[|w.trace|..] == (if h.Target? then [TargetDelete(h.target.raw)] else [])
                                     + (if w.queues[QueueOf(h)] == 1 then [Fini] else [])
  {
    match h
    case Inst(i) => DropInstance(i, w)
    case Target(t) => DropRenderTarget(w, t)
  }

  lemma ScreensWithout(hs: seq<Holder>, k: nat)
    requires k < |hs| && ScreensExclusive(hs)
    ensures Screens(Without(hs, k)) == Screens(hs) - (if hs[k].Target? then {hs[k].target.screen.id} else {})
    ensures ScreensExclusive(Without(hs, k))
  {
    var r := Without(hs, k);
    assert forall i | 0 <= i < |r| :: r[i] == hs[if i < k then i else i + 1];
    forall id | id in Screens(r)
      ensures id in Screens(hs) - (if hs[k].Target? then {hs[k].target.screen.id} else {})
    {
      var i :| 0 <= i < |r| && r[i].Target? && r[i].target.screen.id == id;
      var j := if i < k then i else i + 1;
      assert hs[j] == r[i] && j != k;
    }
    forall id | id in Screens(hs) - (if hs[k].Target? then {hs[k].target.screen.id} else {})
      ensures id in Screens(r)
    {
      var j :| 0 <= j < |hs| && hs[j].Target? && hs[j].target.screen.id == id;
      assert j != k;
      var i := if j < k then j else j - 1;
      assert r[i] == hs[j];
    }
  }

  lemma NonNullWithout(hs: seq<Holder>, k: nat)
    requires k < |hs| && TargetsNonNull(hs)
    ensures TargetsNonNull(Without(hs, k))
  {
    var r := Without(hs, k);
    forall i | 0 <= i < |r| && r[i].Target?
      ensures r[i].target.raw != Null
    {
      assert r[i] == hs[if i < k then i else i + 1];
    }
  }

  /** The anchor counts after dropping holder `k`. */
  lemma DropHolderQueues(w: World, hs: seq<Holder>, k: nat)
    requires k < |hs| && w.queues == Queues(hs) && QueuesIssued(w)
    ensures QueueOf(hs[k]) in w.queues
    ensures var w' := DropHolder(w, hs[k]);
      && w'.queues == Queues(Without(hs, k))
      && QueuesIssued(w')
      && (w.queues[QueueOf(hs[k])] == 1 <==> QueueOf(hs[k]) !in Queues(Without(hs, k)))
  {
    QueuesWithout(hs, k);
  }

  /** The screen borrows after dropping holder `k`. */
  lemma DropHolderScreens(w: World, hs: seq<Holder>, loose: set<ScreenId>, k: nat)
    requires k < |hs| && QueueOf(hs[k]) in w.queues
    requires ScreensExclusive(hs) && Screens(hs) !! loose && w.borrowed == Screens(hs) + loose
    ensures DropHolder(w, hs[k]).borrowed == Screens(Without(hs, k)) + loose
  {
    ScreensWithout(hs, k);
    if hs[k].Target? {
      assert hs[k].target.screen.id in Screens(hs);
    }
  }

  /** Dropping any holder keeps the accounting for the rest, and the native
      teardown runs exactly when no remaining holder holds that anchor. */
  lemma DropHolderAccounted(w: World, hs: seq<Holder>, loose: set<ScreenId>, k: nat)
    requires Accounted(w, hs, loose)
    requires k < |hs|
    ensures QueueOf(hs[k]) in w.queues
    ensures var w' := DropHolder(w, hs[k]);
      && Accounted(w', Without(hs, k), loose)
      && (Fini in w'.trace[|w.trace|..] <==> QueueOf(hs[k]) !in Queues(Without(hs, k)))
  {
    DropHolderQueues(w, hs, k);
    DropHolderScreens(w, hs, loose, k);
    ScreensWithout(hs, k);
    NonNullWithout(hs, k);
  }

  /** Drops the holders in the order given. */
  function DropAll(w: World, hs: seq<Holder>): (w': World)
    requires Queues(hs) <= w.queues
    decreases |hs|
    ensures |w.trace| <= |w'.trace| && w'.trace[..|w.trace|] == w.trace
  {
    if |hs| == 0 then w
    else DropAll(DropHolder(w, hs[0]), hs[1..])
  }

  /** Dropping one holder tears the anchor down, as its last call, exactly
      when it was the anchor's last holder. */
  lemma DropHolderFini(w: World, h: Holder)
    requires QueueOf(h) in w.queues
    ensures var d := DropHolder(w, h).trace[|w.trace|..];
      && CountFini(d) == (if w.queues[QueueOf(h)] == 1 then 1 else 0)
      && (w.queues[QueueOf(h)] == 1 ==> |d| > 0 && d[|d| - 1] == Fini)
      && (forall i | 0 <= i < |d| - 1 :: d[i] != Fini)
      && (w.queues[QueueOf(h)] != 1 ==> forall i | 0 <= i < |d| :: d[i] != Fini)
  {
    var d := DropHolder(w, h).trace[|w.trace|..];
    if h.Target? {
      var del := TargetDelete(h.target.raw);
      if w.queues[QueueOf(h)] == 1 {
        assert d == [del, Fini];
        assert d[..1] == [del] && [del][..0] == [];
        assert CountFini(d[..1]) == 0;
      } else {
        assert d == [del];
        assert d[..0] == [];
      }
    } else if w.queues[QueueOf(h)] == 1 {
      assert d == [Fini];
      assert d[..0] == [];
    }
  }

  /** `calls` ends with the teardown and holds no other. */
  predicate FiniOnlyLast(calls: seq<Call>)
  {
    && |calls| > 0 && calls[|calls| - 1] == Fini
    && forall i | 0 <= i < |calls| - 1 :: calls[i] != Fini
  }

  lemma FiniOnlyLastPrepend(d: seq<Call>, e: seq<Call>)
    requires forall i | 0 <= i < |d| :: d[i] != Fini
    requires FiniOnlyLast(e)
    ensures FiniOnlyLast(d + e)
  {
    var s := d + e;
    forall i | 0 <= i < |s| - 1 ensures s[i] != Fini {
      if i < |d| { assert s[i] == d[i]; } else { assert s[i] == e[i - |d|]; }
    }
  }

  lemma SliceAfterPrefix(t: seq<Call>, p: seq<Call>, n: nat)
    requires n <= |p| <= |t| && t[..|p|] == p
    ensures t[n..] == p[n..] + t[|p|..]
  {
  }

  /** Dropping the first of several holders of one anchor leaves the rest
      holding all its remaining shares. */
  lemma DropFirstOfShared(w: World, hs: seq<Holder>, q: QueueId)
    requires |hs| > 1
    requires forall i | 0 <= i < |hs| :: QueueOf(hs[i]) == q
    requires w.queues[q] == |hs| && Queues(hs) <= w.queues
    ensures QueueOf(hs[0]) in w.queues && w.queues[QueueOf(hs[0])] != 1
    ensures var w1 := DropHolder(w, hs[0]);
      && w1.queues[q] == |hs| - 1
      && Queues(hs[1..]) <= w1.queues
      && forall i | 0 <= i < |hs[1..]| :: QueueOf(hs[1..][i]) == q
  {
    assert QueueOf(hs[0]) == q;
    assert Queues(hs) == multiset{q} + Queues(hs[1..]);
  }

  /** A teardown-free prefix `d` in front of a suffix whose only teardown
      is its last call. */
  lemma TearDownAfterPrefix(t0: seq<Call>, d: seq<Call>, t: seq<Call>)
    requires |t0 + d| <= |t| && t[..|t0 + d|] == t0 + d
    requires forall i | 0 <= i < |d| :: d[i] != Fini
    requires CountFini(d) == 0
    requires FiniOnlyLast(t[|t0 + d|..]) && CountFini(t) == CountFini(t0 + d) + 1
    ensures FiniOnlyLast(t[|t0|..]) && CountFini(t) == CountFini(t0) + 1
  {
    CountFiniAppend(t0, d);
    SliceAfterPrefix(t, t0 + d, |t0|);
    assert (t0 + d)[|t0|..] == d;
    FiniOnlyLastPrepend(d, t[|t0 + d|..]);
  }

  /** Whatever order the holders of one anchor are dropped in, its teardown
      runs exactly once and is the very last native call: every target's
      native delete comes before it. */
  lemma {:induction false} DropAllTearsDownOnceLast(w: World, hs: seq<Holder>, q: QueueId)
    requires |hs| > 0
    requires forall i | 0 <= i < |hs| :: QueueOf(hs[i]) == q
    requires w.queues[q] == |hs|
    requires Queues(hs) <= w.queues
    decreases |hs|
    ensures var t := DropAll(w, hs).trace;
      && FiniOnlyLast(t[|w.trace|..])
      && CountFini(t) == CountFini(w.trace) + 1
  {
    var w1 := DropHolder(w, hs[0]);
    var d := w1.trace[|w.trace|..];
    assert w1.trace == w.trace + d;
    DropHolderFini(w, hs[0]);
    if |hs| == 1 {
      CountFiniAppend(w.trace, d);
      assert hs[1..] == [];
      assert DropAll(w, hs).trace == w1.trace;
    } else {
      DropFirstOfShared(w, hs, q);
      DropAllTearsDownOnceLast(w1, hs[1..], q);
      assert DropAll(w, hs) == DropAll(w1, hs[1..]);
      TearDownAfterPrefix(w.trace, d, DropAll(w1, hs[1..]).trace);
    }
  }

  /** A change to the trace alone keeps the accounting. */
  lemma TraceOnlyAccounted(w: World, w': World, hs: seq<Holder>, loose: set<ScreenId>)
    requires Accounted(w, hs, loose)
    requires w' == w.(trace := w'.trace)
    ensures Accounted(w', hs, loose)
  {
  }

  /** Swapping changes no ownership, whatever draw-on returns. */
  lemma SwapRenderTargetAccounted(inst: Instance, w: World, hs: seq<Holder>, loose: set<ScreenId>,
                                  a: RenderTarget, b: ScreenTarget, drawOnOk: bool)
    requires Accounted(w, hs, loose)
    ensures Accounted(SwapRenderTarget(inst, w, a, b, drawOnOk).world, hs, loose)
  {
    TraceOnlyAccounted(w, SwapRenderTarget(inst, w, a, b, drawOnOk).world, hs, loose);
  }

  /** The targets `ts` as holders, in the same order. */
  function TargetHolders(ts: seq<ScreenTarget>): (hs: seq<Holder>)
    ensures |hs| == |ts|
    ensures forall i | 0 <= i < |ts| :: hs[i] == Target(ts[i].inner)
  {
    seq(|ts|, i requires 0 <= i < |ts| => Target(ts[i].inner))
  }

  /** The holders of targets hold the targets' anchors. */
  lemma {:induction false} TargetHoldersQueues(ts: seq<ScreenTarget>)
    decreases |ts|
    ensures Queues(TargetHolders(ts)) == TargetQueues(ts)
  {
    if |ts| > 0 {
      assert TargetHolders(ts)[1..] == TargetHolders(ts[1..]);
      TargetHoldersQueues(ts[1..]);
    }
  }

  /** Dropping targets one by one is dropping them as holders. */
  lemma {:induction false} DropScreenTargetsIsDropAll(w: World, ts: seq<ScreenTarget>)
    requires TargetQueues(ts) <= w.queues
    decreases |ts|
    ensures Queues(TargetHolders(ts)) == TargetQueues(ts)
    ensures DropScreenTargets(w, ts) == DropAll(w, TargetHolders(ts))
  {
    var hs := TargetHolders(ts);
    if |ts| == 0 {
      assert hs == [];
    } else {
      assert hs[1..] == TargetHolders(ts[1..]);
      assert ts[0] == ScreenTarget(ts[0].inner);
      var w1 := DropScreenTarget(w, ts[0]);
      assert DropHolder(w, hs[0]) == w1;
      DropScreenTargetsIsDropAll(w1, ts[1..]);
    }
  }

  /** An anchor the holders hold is held by one of them. */
  lemma {:induction false} QueuesMember(hs: seq<Holder>, q: QueueId)
    requires q in Queues(hs)
    ensures exists j | 0 <= j < |hs| :: QueueOf(hs[j]) == q
  {
    if QueueOf(hs[0]) != q {
      QueuesMember(hs[1..], q);
      var j :| 0 <= j < |hs[1..]| && QueueOf(hs[1..][j]) == q;
      assert QueueOf(hs[j + 1]) == q;
    }
  }

  /** Some holder among `ds` holds an anchor that no holder in `rest` holds. */
  predicate SomeAnchorFreed(ds: seq<Holder>, rest: seq<Holder>)
  {
    exists i | 0 <= i < |ds| :: QueueOf(ds[i]) !in Queues(rest)
  }

  /** The anchor of the first dropped holder leaves nothing behind, or a
      later one does, exactly when some dropped holder's anchor is freed. */
  lemma SomeAnchorFreedCons(ds: seq<Holder>, rest: seq<Holder>)
    requires |ds| > 0
    ensures SomeAnchorFreed(ds, rest)
        <==> QueueOf(ds[0]) !in Queues(rest + ds[1..]) || SomeAnchorFreed(ds[1..], rest)
  {
    QueuesAppend(rest, ds[1..]);
    if SomeAnchorFreed(ds, rest) {
      var i :| 0 <= i < |ds| && QueueOf(ds[i]) !in Queues(rest);
      if i > 0 {
        assert ds[1..][i - 1] == ds[i];
      } else if QueueOf(ds[0]) in Queues(ds[1..]) {
        QueuesMember(ds[1..], QueueOf(ds[0]));
      }
    }
    if SomeAnchorFreed(ds[1..], rest) {
      var j :| 0 <= j < |ds[1..]| && QueueOf(ds[1..][j]) !in Queues(rest);
      assert ds[j + 1] == ds[1..][j];
    }
  }

  lemma FiniInSplit(t: seq<Call>, n: nat, m: nat)
    requires n <= m <= |t|
    ensures Fini in t[n..] <==> Fini in t[n..m] || Fini in t[m..]
  {
    assert t[n..] == t[n..m] + t[m..];
  }

  /** Dropping the holders `ds`, first to last, keeps the accounting for the
      holders `rest` that remain, and tears down exactly when some dropped
      holder's anchor is held by none of them. */
  lemma {:induction false} DropAllAccounted(w: World, rest: seq<Holder>, ds: seq<Holder>, loose: set<ScreenId>)
    requires Accounted(w, rest + ds, loose)
    decreases |ds|
    ensures Queues(ds) <= w.queues
    ensures var w' := DropAll(w, ds);
      && Accounted(w', rest, loose)
      && (Fini in w'.trace[|w.trace|..] <==> SomeAnchorFreed(ds, rest))
  {
    QueuesAppend(rest, ds);
    if |ds| == 0 {
      assert rest + ds == rest;
    } else {
      var hs := rest + ds;
      var k := |rest|;
      assert hs[k] == ds[0];
      assert Without(hs, k) == rest + ds[1..];
      DropHolderAccounted(w, hs, loose, k);
      var w1 := DropHolder(w, ds[0]);
      DropAllAccounted(w1, rest, ds[1..], loose);
      var w' := DropAll(w1, ds[1..]);
      assert DropAll(w, ds) == w';
      assert w'.trace[..|w1.trace|] == w1.trace;
      assert w'.trace[|w.trace|..|w1.trace|] == w1.trace[|w.trace|..];
      FiniInSplit(w'.trace, |w.trace|, |w1.trace|);
      SomeAnchorFreedCons(ds, rest);
    }
  }

  /** When draw-on fails, the frame scope drops what the unused scope owns
      and then the target it was given: the world is the opened frame with
      those holders dropped in that order. */
  lemma RenderToTargetFailureDrops<T>(inst: Instance, w: World, st: ScreenTarget,
                                      f: (Instance, World, RenderTarget) -> Step<(RenderTarget, T)>,
                                      captured: seq<ScreenTarget>)
    requires TargetQueues(captured + [st]) <= w.queues
    ensures Queues(TargetHolders(captured + [st])) <= Opened(w, st).queues
    ensures var r := RenderToTarget(inst, w, st, false, f, captured);
      && r.value == Err(InvalidRenderTarget)
      && r.world == DropAll(Opened(w, st), TargetHolders(captured + [st]))
      && r.world.trace[|w.trace|..] == [FrameBegin(FrameSyncDraw), FrameDrawOn(st.inner.raw)]
                                       + r.world.trace[|Opened(w, st).trace|..]
  {
    var e := Opened(w, st);
    var d := DropScreenTargets(e, captured + [st]);
    assert RenderToTarget(inst, w, st, false, f, captured).world == d;
    DropScreenTargetsIsDropAll(e, captured + [st]);
    OpenedThenMore(w, st, d.trace);
  }

  /** A trace that extends the opened frame is the old trace, the frame's
      begin and draw-on, and what came after. */
  lemma OpenedThenMore(w: World, st: ScreenTarget, t: seq<Call>)
    requires |Opened(w, st).trace| <= |t| && t[..|Opened(w, st).trace|] == Opened(w, st).trace
    ensures t[|w.trace|..] == [FrameBegin(FrameSyncDraw), FrameDrawOn(st.inner.raw)] + t[|Opened(w, st).trace|..]
  {
    var e := Opened(w, st).trace;
    SliceAfterPrefix(t, e, |w.trace|);
    assert e[|w.trace|..] == [FrameBegin(FrameSyncDraw), FrameDrawOn(st.inner.raw)];
  }

  /** The dropped targets free an anchor exactly when one of them holds an
      anchor none of `rest` holds. */
  lemma TargetHoldersFreed(ts: seq<ScreenTarget>, rest: seq<Holder>)
    ensures SomeAnchorFreed(TargetHolders(ts), rest)
        <==> exists i | 0 <= i < |ts| :: ts[i].inner.queue !in Queues(rest)
  {
    var hs := TargetHolders(ts);
    if exists i | 0 <= i < |ts| :: ts[i].inner.queue !in Queues(rest) {
      var i :| 0 <= i < |ts| && ts[i].inner.queue !in Queues(rest);
      assert QueueOf(hs[i]) == ts[i].inner.queue;
    }
  }

  /** The two frame calls in front of a slice hold no teardown. */
  lemma FiniAfterFrameCalls(t: seq<Call>, u: seq<Call>, raw: Ptr)
    requires t == [FrameBegin(FrameSyncDraw), FrameDrawOn(raw)] + u
    ensures Fini in t <==> Fini in u
  {
  }

  /** When draw-on fails, the holders the frame scope drops (what the scope
      owns, then the given target) leave the accounting to the holders
      `rest`, and teardown ran in the scope exactly when one of the dropped
      targets' anchors is held by none of them. */
  lemma RenderToTargetFailureAccounted<T>(inst: Instance, w: World, rest: seq<Holder>, loose: set<ScreenId>,
                                          st: ScreenTarget, captured: seq<ScreenTarget>,
                                          f: (Instance, World, RenderTarget) -> Step<(RenderTarget, T)>)
    requires Accounted(w, rest + TargetHolders(captured + [st]), loose)
    ensures TargetQueues(captured + [st]) <= w.queues
    ensures var r := RenderToTarget(inst, w, st, false, f, captured);
      && r.value == Err(InvalidRenderTarget)
      && Accounted(r.world, rest, loose)
      && (Fini in r.world.trace[|w.trace|..] <==>
          exists i | 0 <= i < |captured + [st]| :: (captured + [st])[i].inner.queue !in Queues(rest))
  {
    var ts := captured + [st];
    var ds := TargetHolders(ts);
    var e := Opened(w, st);
    TargetHoldersQueues(ts);
    QueuesAppend(rest, ds);
    OpenedDropAccounted(w, st, rest, ds, loose);
    DropScreenTargetsIsDropAll(e, ts);
    RenderToTargetFailureDrops(inst, w, st, f, captured);
    var t := RenderToTarget(inst, w, st, false, f, captured).world.trace;
    assert t == DropAll(e, ds).trace;
    FiniAfterFrameCalls(t[|w.trace|..], t[|e.trace|..], st.inner.raw);
    TargetHoldersFreed(ts, rest);
  }

  /** Dropping holders `ds` in an opened frame leaves the accounting to
      `rest` and tears down exactly when an anchor is freed. */
  lemma OpenedDropAccounted(w: World, st: ScreenTarget, rest: seq<Holder>, ds: seq<Holder>, loose: set<ScreenId>)
    requires Accounted(w, rest + ds, loose)
    ensures Queues(ds) <= Opened(w, st).queues
    ensures var e := Opened(w, st);
      var w' := DropAll(e, ds);
      && Accounted(w', rest, loose)
      && (Fini in w'.trace[|e.trace|..] <==> SomeAnchorFreed(ds, rest))
  {
    OpenedAccounted(w, st, rest + ds, loose);
    DropAllAccounted(Opened(w, st), rest, ds, loose);
  }

  /** Beginning a frame and drawing on a target changes no ownership. */
  lemma OpenedAccounted(w: World, st: ScreenTarget, hs: seq<Holder>, loose: set<ScreenId>)
    requires Accounted(w, hs, loose)
    ensures Accounted(Opened(w, st), hs, loose)
  {
    TraceOnlyAccounted(w, Opened(w, st), hs, loose);
  }

  /** On success the frame scope ends the frame and changes no ownership
      after its scope: whatever accounting the scope leaves holds after it. */
  lemma RenderToTargetSuccessAccounted<T>(inst: Instance, w: World, st: ScreenTarget,
                                          f: (Instance, World, RenderTarget) -> Step<(RenderTarget, T)>,
                                          captured: seq<ScreenTarget>, hs: seq<Holder>, loose: set<ScreenId>)
    requires TargetQueues(captured + [st]) <= w.queues
    requires Accounted(f(inst, Opened(w, st), IntoInner(st)).world, hs, loose)
    ensures Accounted(RenderToTarget(inst, w, st, true, f, captured).world, hs, loose)
  {
    var o := f(inst, Opened(w, st), IntoInner(st));
    TraceOnlyAccounted(o.world, RenderToTarget(inst, w, st, true, f, captured).world, hs, loose);
  }

  /** Wrapping a raw target on a loose screen keeps the accounting: on
      success the new target joins the holders, on failure the screen is
      given back. */
  lemma CreateScreenTargetFromRawAccounted(w: World, hs: seq<Holder>, loose: set<ScreenId>, k: nat,
                                           raw: Ptr, screen: Screen)
    requires Accounted(w, hs, loose)
    requires k < |hs| && hs[k].Inst?
    requires screen.id in loose
    ensures hs[k].inst.queue in w.queues
    ensures var m := CreateScreenTargetFromRaw(hs[k].inst, w, raw, screen);
      && (m.result.Ok? ==> Accounted(m.world, hs + [Target(m.result.value.inner)], loose - {screen.id}))
      && (m.result.Err? ==> Accounted(m.world, hs, loose - {screen.id}) && m.world.trace == w.trace)
  {
    HolderQueueIn(hs, k);
    var m := CreateScreenTargetFromRaw(hs[k].inst, w, raw, screen);
    if m.result.Ok? {
      AddTargetAccounted(w, hs, loose, m.result.value.inner, m.world);
    } else {
      assert m.world.borrowed == Screens(hs) + (loose - {screen.id});
    }
  }

  /** Replacing an instance holder by the same instance in a later state
      (same anchor) keeps the accounting. */
  lemma ReplaceInstAccounted(w: World, hs: seq<Holder>, loose: set<ScreenId>, k: nat, inst: Instance)
    requires Accounted(w, hs, loose)
    requires k < |hs| && hs[k].Inst? && inst.queue == hs[k].inst.queue
    ensures Accounted(w, hs[k := Inst(inst)], loose)
  {
    var hs' := hs[k := Inst(inst)];
    SplitAt(hs, k);
    SplitAt(hs', k);
    assert hs'[..k] == hs[..k] && hs'[k + 1..] == hs[k + 1..];
    QueuesSplit(hs[..k], hs[k], hs[k + 1..]);
    QueuesSplit(hs[..k], hs'[k], hs[k + 1..]);
    assert Screens(hs') == Screens(hs) by {
      assert forall i | 0 <= i < |hs| && i != k :: hs'[i] == hs[i];
    }
    assert forall i | 0 <= i < |hs| && i != k :: hs'[i] == hs[i];
  }

  /** Asking the native side to draw on a target changes no ownership. */
  lemma SetRenderTargetAccounted(inst: Instance, w: World, hs: seq<Holder>, loose: set<ScreenId>,
                                 target: ScreenTarget, drawOnOk: bool)
    requires Accounted(w, hs, loose)
    ensures Accounted(SetRenderTarget(inst, w, target, drawOnOk).world, hs, loose)
  {
    TraceOnlyAccounted(w, SetRenderTarget(inst, w, target, drawOnOk).world, hs, loose);
  }

  /** Clearing a target changes no ownership. */
  lemma ClearAccounted(w: World, hs: seq<Holder>, loose: set<ScreenId>, t: RenderTarget,
                       flags: ClearFlags, rgba: bv32, depth: bv32)
    requires Accounted(w, hs, loose)
    ensures Accounted(Clear(w, t, flags, rgba, depth), hs, loose)
  {
    TraceOnlyAccounted(w, Clear(w, t, flags, rgba, depth), hs, loose);
  }

  /** Rebinding the light environment of holder `k` keeps the accounting
      with the updated instance in its place. */
  lemma BindLightEnvAccounted(w: World, hs: seq<Holder>, loose: set<ScreenId>, k: nat, env: Option<PinnedLightEnv>)
    requires Accounted(w, hs, loose)
    requires k < |hs| && hs[k].Inst?
    ensures var r := BindLightEnv(hs[k].inst, w, env);
      Accounted(r.world, hs[k := Inst(r.inst)], loose)
  {
    var r := BindLightEnv(hs[k].inst, w, env);
    ReplaceInstAccounted(w, hs, loose, k, r.inst);
    TraceOnlyAccounted(w, r.world, hs[k := Inst(r.inst)], loose);
  }

  /** Fetching a texture-combiner stage of holder `k` keeps the accounting
      with the updated instance in its place. */
  lemma GetTexEnvAccounted(w: World, hs: seq<Holder>, loose: set<ScreenId>, k: nat, stage: Stage)
    requires Accounted(w, hs, loose)
    requires k < |hs| && hs[k].Inst?
    ensures var r := GetTexEnv(hs[k].inst, w, stage);
      Accounted(r.world, hs[k := Inst(r.inst)], loose)
  {
    var r := GetTexEnv(hs[k].inst, w, stage);
    ReplaceInstAccounted(w, hs, loose, k, r.inst);
    TraceOnlyAccounted(w, r.world, hs[k := Inst(r.inst)], loose);
  }
}

=== FILE: math.dfy ===
/** The integer 4-vector: four bytes packed into one native word in the
    GPU's WZYX order (x in the lowest byte). */
module Math {
  import opened Bytes

  /** Equality of vectors is equality of the packed word. */
  datatype IVec = IVec(raw: bv32)

  /** `IVec::new`: the native pack places x, y, z, w from the lowest byte up. */
  function New(x: bv8, y: bv8, z: bv8, w: bv8): (v: IVec)
    ensures X(v) == x && Y(v) == y && Z(v) == z && W(v) == w
  {
    UnpackPack(x, y, z, w);
    IVec(Pack(x, y, z, w))
  }

  function X(v: IVec): bv8
  {
    Low8(v.raw)
  }

  function Y(v: IVec): bv8
  {
    Low8(v.raw >> 8)
  }

  function Z(v: IVec): bv8
  {
    Low8(v.raw >> 16)
  }

  function W(v: IVec): bv8
  {
    Low8(v.raw >> 24)
  }

  /** x is bits 0-7 of the word, y bits 8-15, z bits 16-23, w bits 24-31. */
  lemma GettersReadBytes(v: IVec)
    ensures X(v) as bv32 == v.raw & 0x0000_00FF
    ensures (Y(v) as bv32) << 8 == v.raw & 0x0000_FF00
    ensures (Z(v) as bv32) << 16 == v.raw & 0x00FF_0000
    ensures (W(v) as bv32) << 24 == v.raw & 0xFF00_0000
  {
  }

  /** Every vector is the packing of what its getters read. */
  lemma NewFromGetters(v: IVec)
    ensures New(X(v), Y(v), Z(v), W(v)) == v
  {
    PackUnpack(v.raw);
  }

  /** Two vectors are equal exactly when all four getters agree. */
  lemma EqualIffGettersAgree(u: IVec, v: IVec)
    ensures u == v <==> X(u) == X(v) && Y(u) == Y(v) && Z(u) == Z(v) && W(u) == W(v)
  {
    NewFromGetters(u);
    NewFromGetters(v);
  }

  /** The getters read back the values a vector was made from. */
  lemma GettersOfNew()
    ensures var iv := New(1, 2, 3, 4); X(iv) == 1 && Y(iv) == 2 && Z(iv) == 3 && W(iv) == 4
  {
  }
}

=== FILE: native.dfy ===
/** The native graphics library as the bindings see it: each call it makes
    is recorded in a trace, and the shared render queue and the screen
    borrows are tracked beside it. What a native call returns is not
    decided here; the operations that make one take its result as a
    parameter. */
module Native {
  import opened Wrappers
  import opened Ffi
  import opened Gfx
  import opened Formats

  /** Identity of one shared render-queue anchor (one `Rc::new`). */
  type QueueId = nat

  /** Frame-begin flag: wait for the previous frame before recording. */
  const FrameSyncDraw: bv8 := 1

  /** The native calls the lifecycle makes, with the arguments it passes. */
  datatype Call =
    | Init(cmdbufSize: nat)
    | Fini
    | FrameBegin(beginFlags: bv8)
    | FrameDrawOn(drawTarget: Ptr)
    | FrameEnd(endFlags: bv8)
    | TargetCreate(width: int, height: int, color: ColorFormat, depth: int)
    | TargetSetOutput(outTarget: Ptr, screen: Ptr, side: Side, transfer: TransferFlags)
    | TargetDelete(deleted: Ptr)
    | TargetClear(cleared: Ptr, clearBits: bv8, rgba: bv32, depthValue: bv32)
    | LightEnvBind(env: Ptr)
    | TexEnvInit(stage: nat)

  /** Everything the lifecycle changes: the calls made so far, one entry per
      live holder of each render-queue anchor, the next anchor identity, and
      the screens currently borrowed. */
  datatype World = World(trace: seq<Call>, queues: multiset<QueueId>, nextQueue: QueueId, borrowed: set<ScreenId>)

  /** Every live anchor was handed out before `nextQueue`. */
  predicate QueuesIssued(w: World)
  {
    forall q | q in w.queues :: q < w.nextQueue
  }

  function Emit(w: World, c: Call): World
  {
    w.(trace := w.trace + [c])
  }

  /** Number of teardown calls among `calls`. */
  function CountFini(calls: seq<Call>): nat
  {
    if |calls| == 0 then 0
    else CountFini(calls[..|calls| - 1]) + (if calls[|calls| - 1] == Fini then 1 else 0)
  }

  lemma CountFiniAppend(a: seq<Call>, b: seq<Call>)
    ensures CountFini(a + b) == CountFini(a) + CountFini(b)
    decreases |b|
  {
    if |b| > 0 {
      assert (a + b)[..|a + b| - 1] == a + b[..|b| - 1];
      CountFiniAppend(a, b[..|b| - 1]);
    } else {
      assert a + b == a;
    }
  }

  /** `Rc::new`: a fresh anchor with one holder. */
  function NewQueue(w: World): (r: (World, QueueId))
    ensures r.0.queues[r.1] == w.queues[r.1] + 1
    // nothing else changes: no call, no other anchor's shares, no screen
    ensures r.0.queues == w.queues + multiset{r.1} && r.0.nextQueue == r.1 + 1
    ensures r.0.trace == w.trace && r.0.borrowed == w.borrowed
    ensures QueuesIssued(w) ==> r.1 !in w.queues && QueuesIssued(r.0)
  {
    var q := w.nextQueue;
    (w.(queues := w.queues + multiset{q}, nextQueue := q + 1), q)
  }

  /** `Rc::clone`: one more holder of a live anchor. */
  function CloneQueue(w: World, q: QueueId): (w': World)
    requires q in w.queues
    ensures w'.queues == w.queues + multiset{q} && w'.queues[q] == w.queues[q] + 1
    ensures w'.trace == w.trace && w'.borrowed == w.borrowed && w'.nextQueue == w.nextQueue
  {
    w.(queues := w.queues + multiset{q})
  }

  /** Dropping one holder of an anchor. When it was the last holder the
      anchor's destructor runs the native teardown. */
  function ReleaseQueue(w: World, q: QueueId): (w': World)
    requires q in w.queues
    ensures w'.queues[q] == w.queues[q] - 1
    ensures forall p | p != q :: w'.queues[p] == w.queues[p]
    ensures w'.trace == w.trace + (if w.queues[q] == 1 then [Fini] else [])
    ensures q !in w'.queues <==> w'.trace == w.trace + [Fini]
    ensures w'.borrowed == w.borrowed && w'.nextQueue == w.nextQueue
  {
    var w1 := w.(queues := w.queues - multiset{q});
    if q in w1.queues then w1 else Emit(w1, Fini)
  }

  /** Taking the exclusive borrow of a screen; it fails while the screen is
      already borrowed. */
  function BorrowScreen(w: World, id: ScreenId): (r: Option<World>)
    ensures r.Some? <==> id !in w.borrowed
    ensures r.Some? ==> r.value == w.(borrowed := w.borrowed + {id})
  {
    if id in w.borrowed then None else Some(w.(borrowed := w.borrowed + {id}))
  }

  /** Giving a screen borrow back. */
  function ReleaseScreen(w: World, id: ScreenId): (w': World)
    ensures w'.borrowed == w.borrowed - {id} && id !in w'.borrowed
    ensures w'.queues == w.queues && w'.trace == w.trace && w'.nextQueue == w.nextQueue
    // after the release the screen can be borrowed again
    ensures BorrowScreen(w', id).Some?
  {
    w.(borrowed := w.borrowed - {id})
  }

  /** Cloning a share and dropping it again restores the world: the clone
      is never the last holder, so no teardown runs. */
  lemma CloneReleaseRoundTrip(w: World, q: QueueId)
    requires q in w.queues
    ensures ReleaseQueue(CloneQueue(w, q), q) == w
  {
    assert CloneQueue(w, q).queues - multiset{q} == w.queues;
  }

  /** Taking a free screen and giving it back restores the world. */
  lemma BorrowReleaseRoundTrip(w: World, id: ScreenId)
    requires id !in w.borrowed
    ensures BorrowScreen(w, id).Some? && ReleaseScreen(BorrowScreen(w, id).value, id) == w
  {
    assert (w.borrowed + {id}) - {id} == w.borrowed;
  }
}

=== FILE: render.dfy ===
/** Render targets. One native target has two wrappers: `ScreenTarget`, the
    passive state (bound to a screen, not being drawn on), and
    `RenderTarget`, the active state. Both hold the raw pointer, the screen
    borrow and a holder of the render-queue anchor. */
module Render {
  import opened Wrappers
  import opened Ffi
  import opened Gfx
  import opened Formats
  import opened Native
  import opened Errors

  /** `usize` on the console's 32-bit cores. */
  type Usize = n: nat | n < 0x1_0000_0000

  /** Largest value of the native `int` the create call takes. */
  const CIntMax: int := 0x7FFF_FFFF

  predicate FitsCInt(n: Usize)
  {
    n <= CIntMax
  }

  datatype RenderTarget = RenderTarget(raw: Ptr, screen: Screen, queue: QueueId)

  datatype ScreenTarget = ScreenTarget(inner: RenderTarget)

  /** A fallible constructor's outcome together with the world it leaves. */
  datatype Made<A> = Made(world: World, result: Result<A, Error>)

  /** Activates a passive target: same pointer, screen and queue. */
  function IntoInner(st: ScreenTarget): RenderTarget
  {
    st.inner
  }

  /** Deactivates an active target. */
  function FromRenderTarget(rt: RenderTarget): ScreenTarget
  {
    ScreenTarget(rt)
  }

  /** Activation and deactivation undo each other and keep the raw pointer,
      the screen borrow and the queue. */
  lemma IntoInnerFromRenderTargetInverse(st: ScreenTarget, rt: RenderTarget)
    ensures FromRenderTarget(IntoInner(st)) == st
    ensures IntoInner(FromRenderTarget(rt)) == rt
    ensures IntoInner(st).raw == st.inner.raw && IntoInner(st).screen == st.inner.screen
    ensures IntoInner(st).queue == st.inner.queue
  {
  }

  /** The calls a successful create makes: create, then route the target's
      output to the screen with matching transfer formats. */
  function CreateCalls(width: int, height: int, screen: Screen, depth: Option<DepthFormat>, created: Ptr): seq<Call>
  {
    var color := ColorFormatFrom(screen.format);
    [TargetCreate(width, height, color, DepthArg(depth)),
     TargetSetOutput(created, screen.handle, screen.side, TransferFlags(color, color))]
  }

  /** Drops what a failed constructor still owns: its queue holder and then
      its screen borrow. */
  function DropArgs(w: World, screen: Screen, queue: QueueId): (w': World)
    requires queue in w.queues
    ensures w'.queues == w.queues - multiset{queue}
    ensures w'.borrowed == w.borrowed - {screen.id}
    ensures w'.trace == w.trace + (if w.queues[queue] == 1 then [Fini] else [])
    ensures w'.nextQueue == w.nextQueue
  {
    ReleaseScreen(ReleaseQueue(w, queue), screen.id)
  }

  /** `RenderTarget::new`. `created` is what the native create call returns. */
  function NewRenderTarget(w: World, width: Usize, height: Usize, screen: Screen,
                           depth: Option<DepthFormat>, queue: QueueId, created: Ptr): (r: Made<RenderTarget>)
    requires queue in w.queues
    ensures r.result.Ok? <==> FitsCInt(width) && FitsCInt(height) && created != Null
    // a new target wraps the non-null pointer, the screen borrow and the queue
    ensures r.result.Ok? ==> r.result.value == RenderTarget(created, screen, queue) && r.result.value.raw != Null
    ensures r.result.Ok? ==>
      && r.world.queues == w.queues && r.world.borrowed == w.borrowed
      && r.world.trace == w.trace + CreateCalls(width, height, screen, depth, created)
    // a size that does not fit is refused before the native create call
    ensures !(FitsCInt(width) && FitsCInt(height)) ==>
      && r.result == Err(InvalidSize)
      && r.world.trace == w.trace + (if w.queues[queue] == 1 then [Fini] else [])
    ensures FitsCInt(width) && FitsCInt(height) && created == Null ==>
      && r.result == Err(FailedToInitialize)
      && r.world.trace == w.trace + [CreateCalls(width, height, screen, depth, created)[0]]
                                  + (if w.queues[queue] == 1 then [Fini] else [])
    // a failure gives back the screen borrow and the queue holder
    ensures r.result.Err? ==>
      r.world.queues == w.queues - multiset{queue} && r.world.borrowed == w.borrowed - {screen.id}
    ensures r.world.nextQueue == w.nextQueue
  {
    var color := ColorFormatFrom(screen.format);
    if !FitsCInt(width) || !FitsCInt(height) then
      Made(DropArgs(w, screen, queue), Err(InvalidSize))
    else
      var w1 := Emit(w, TargetCreate(width, height, color, DepthArg(depth)));
      if created == Null then
        Made(DropArgs(w1, screen, queue), Err(FailedToInitialize))
      else
        var w2 := Emit(w1, TargetSetOutput(created, screen.handle, screen.side, TransferFlags(color, color)));
        Made(w2, Ok(RenderTarget(created, screen, queue)))
  }

  /** `RenderTarget::from_raw`: wraps an existing native target without
      creating one. */
  function RenderTargetFromRaw(w: World, raw: Ptr, screen: Screen, queue: QueueId): (r: Made<RenderTarget>)
    requires queue in w.queues
    ensures r.result.Ok? <==> raw != Null
    ensures r.result.Ok? ==> r.result.value == RenderTarget(raw, screen, queue) && r.world == w
    ensures r.result.Err? ==>
      && r.result.error == FailedToInitialize
      && r.world.queues == w.queues - multiset{queue} && r.world.borrowed == w.borrowed - {screen.id}
      && r.world.trace == w.trace + (if w.queues[queue] == 1 then [Fini] else [])
      && r.world.nextQueue == w.nextQueue
  {
    if raw == Null then Made(DropArgs(w, screen, queue), Err(FailedToInitialize))
    else Made(w, Ok(RenderTarget(raw, screen, queue)))
  }

  function WrapPassive(m: Made<RenderTarget>): (r: Made<ScreenTarget>)
    ensures r.world == m.world && (r.result.Ok? <==> m.result.Ok?)
    ensures r.result.Ok? ==> r.result.value.inner == m.result.value
    ensures r.result.Err? ==> r.result.error == m.result.error
  {
    match m.result
    case Ok(rt) => Made(m.world, Ok(ScreenTarget(rt)))
    case Err(e) => Made(m.world, Err(e))
  }

  /** `ScreenTarget::new`: a new target starts out passive. */
  function NewScreenTarget(w: World, width: Usize, height: Usize, screen: Screen,
                           depth: Option<DepthFormat>, queue: QueueId, created: Ptr): (r: Made<ScreenTarget>)
    requires queue in w.queues
    ensures r.result.Ok? <==> FitsCInt(width) && FitsCInt(height) && created != Null
    ensures r.result.Ok? ==> r.result.value == ScreenTarget(RenderTarget(created, screen, queue))
    ensures !(FitsCInt(width) && FitsCInt(height)) ==> r.result == Err(InvalidSize)
    ensures FitsCInt(width) && FitsCInt(height) && created == Null ==> r.result == Err(FailedToInitialize)
    ensures r.world == NewRenderTarget(w, width, height, screen, depth, queue, created).world
  {
    WrapPassive(NewRenderTarget(w, width, height, screen, depth, queue, created))
  }

  /** `ScreenTarget::from_raw`. */
  function ScreenTargetFromRaw(w: World, raw: Ptr, screen: Screen, queue: QueueId): (r: Made<ScreenTarget>)
    requires queue in w.queues
    ensures r.result.Ok? <==> raw != Null
    ensures r.result.Ok? ==> r.result.value == ScreenTarget(RenderTarget(raw, screen, queue)) && r.world == w
    ensures r.result.Err? ==>
      && r.result.error == FailedToInitialize
      && r.world.queues == w.queues - multiset{queue} && r.world.borrowed == w.borrowed - {screen.id}
      && r.world.trace == w.trace + (if w.queues[queue] == 1 then [Fini] else [])
      && r.world.nextQueue == w.nextQueue
  {
    WrapPassive(RenderTargetFromRaw(w, raw, screen, queue))
  }

  /** `RenderTarget::clear`: forwards the flag bits, colour and depth value
      to the native clear of this target. */
  function Clear(w: World, t: RenderTarget, flags: ClearFlags, rgba: bv32, depth: bv32): (w': World)
    ensures w'.trace == w.trace + [TargetClear(t.raw, flags.bits, rgba, depth)]
    ensures w'.queues == w.queues && w'.borrowed == w.borrowed && w'.nextQueue == w.nextQueue
  {
    Emit(w, TargetClear(t.raw, flags.bits, rgba, depth))
  }

  /** Dropping a target: the native delete of its pointer, then the screen
      borrow is given back, then its queue holder is dropped. */
  function DropRenderTarget(w: World, t: RenderTarget): (w': World)
    requires t.queue in w.queues
    ensures w'.trace == w.trace + [TargetDelete(t.raw)] + (if w.queues[t.queue] == 1 then [Fini] else [])
    ensures w'.queues == w.queues - multiset{t.queue}
    ensures w'.borrowed == w.borrowed - {t.screen.id}
    ensures w'.nextQueue == w.nextQueue
  {
    ReleaseQueue(ReleaseScreen(Emit(w, TargetDelete(t.raw)), t.screen.id), t.queue)
  }

  /** A passive target has no destructor of its own; dropping it drops the
      target it wraps. */
  function DropScreenTarget(w: World, st: ScreenTarget): (w': World)
    requires st.inner.queue in w.queues
    ensures w' == DropRenderTarget(w, st.inner)
    // the delete comes first, then the teardown exactly when the share was the last
    ensures w'.trace == w.trace + [TargetDelete(st.inner.raw)] + (if w.queues[st.inner.queue] == 1 then [Fini] else [])
    ensures w'.queues[st.inner.queue] == w.queues[st.inner.queue] - 1
    ensures w'.queues == w.queues - multiset{st.inner.queue}
    ensures w'.borrowed == w.borrowed - {st.inner.screen.id} && w'.nextQueue == w.nextQueue
  {
    DropRenderTarget(w, st.inner)
  }

  /** The anchors the targets `ts` hold, one entry per target. */
  function TargetQueues(ts: seq<ScreenTarget>): multiset<QueueId>
  {
    if |ts| == 0 then multiset{} else multiset{ts[0].inner.queue} + TargetQueues(ts[1..])
  }

  /** The screens the targets `ts` hold. */
  function TargetScreens(ts: seq<ScreenTarget>): set<ScreenId>
  {
    set i | 0 <= i < |ts| :: ts[i].inner.screen.id
  }

  /** Every call in `t` from position `n` on is a native delete or a teardown. */
  predicate OnlyDropCalls(t: seq<Call>, n: nat)
  {
    forall i | n <= i < |t| :: t[i].TargetDelete? || t[i] == Fini
  }

  /** Drops the targets `ts` first to last: every share and every screen
      they hold is given back, and the calls this makes are only native
      deletes and teardowns. */
  function DropScreenTargets(w: World, ts: seq<ScreenTarget>): (w': World)
    requires TargetQueues(ts) <= w.queues
    ensures w'.queues == w.queues - TargetQueues(ts)
    ensures w'.borrowed == w.borrowed - TargetScreens(ts)
    ensures w'.nextQueue == w.nextQueue
    ensures |w.trace| + |ts| <= |w'.trace| && w'.trace[..|w.trace|] == w.trace
    ensures OnlyDropCalls(w'.trace, |w.trace|)
    decreases |ts|
  {
    if |ts| == 0 then w
    else
      var w1 := DropScreenTarget(w, ts[0]);
      var dropped := DropScreenTargets(w1, ts[1..]);
      DropScreenTargetsStep(w, ts, w1, dropped);
      dropped
  }

  /** One step of `DropScreenTargets`: dropping the first target and then
      the rest adds up to dropping them all. */
  lemma {:induction false} DropScreenTargetsStep(w: World, ts: seq<ScreenTarget>, w1: World, w': World)
    requires |ts| > 0 && TargetQueues(ts) <= w.queues
    requires w1 == DropScreenTarget(w, ts[0])
    requires w'.queues == w1.queues - TargetQueues(ts[1..])
    requires w'.borrowed == w1.borrowed - TargetScreens(ts[1..])
    requires |w1.trace| + |ts| - 1 <= |w'.trace| && w'.trace[..|w1.trace|] == w1.trace
    requires OnlyDropCalls(w'.trace, |w1.trace|)
    ensures w'.queues == w.queues - TargetQueues(ts)
    ensures w'.borrowed == w.borrowed - TargetScreens(ts)
    ensures |w.trace| + |ts| <= |w'.trace| && w'.trace[..|w.trace|] == w.trace
    ensures OnlyDropCalls(w'.trace, |w.trace|)
  {
    TargetScreensCons(ts);
    MinusTwice(w.queues, multiset{ts[0].inner.queue}, TargetQueues(ts[1..]));
    DropScreenTargetCalls(w, ts[0]);
    PrefixOfPrefix(w.trace, w1.trace, w'.trace);
    OnlyDropCallsJoin(w1.trace, w'.trace, |w.trace|);
  }

  lemma TargetScreensCons(ts: seq<ScreenTarget>)
    requires |ts| > 0
    ensures TargetScreens(ts) == {ts[0].inner.screen.id} + TargetScreens(ts[1..])
  {
    assert forall i | 1 <= i < |ts| :: ts[i] == ts[1..][i - 1];
  }

  /** Dropping one target makes only drop calls. */
  lemma DropScreenTargetCalls(w: World, st: ScreenTarget)
    requires st.inner.queue in w.queues
    ensures OnlyDropCalls(DropScreenTarget(w, st).trace, |w.trace|)
  {
    var t := DropScreenTarget(w, st).trace;
    var d := [TargetDelete(st.inner.raw)] + (if w.queues[st.inner.queue] == 1 then [Fini] else []);
    assert t == w.trace + d;
    forall i | |w.trace| <= i < |t| ensures t[i].TargetDelete? || t[i] == Fini {
      assert t[i] == d[i - |w.trace|];
    }
  }

  lemma PrefixOfPrefix(a: seq<Call>, b: seq<Call>, c: seq<Call>)
    requires |a| <= |b| && b[..|a|] == a
    requires |b| <= |c| && c[..|b|] == b
    ensures c[..|a|] == a
  {
    assert c[..|a|] == c[..|b|][..|a|];
  }

  /** Drop calls from `n` up to the end of a prefix `p`, and drop calls after
      it, are drop calls from `n`. */
  lemma OnlyDropCallsJoin(p: seq<Call>, t: seq<Call>, n: nat)
    requires |p| <= |t| && t[..|p|] == p
    requires OnlyDropCalls(p, n) && OnlyDropCalls(t, |p|)
    ensures OnlyDropCalls(t, n)
  {
    forall i | n <= i < |t| ensures t[i].TargetDelete? || t[i] == Fini {
      if i < |p| {
        assert t[i] == t[..|p|][i];
      }
    }
  }

  lemma MinusTwice(a: multiset<QueueId>, x: multiset<QueueId>, b: multiset<QueueId>)
    ensures (a - x) - b == a - (x + b)
  {
  }
}

=== FILE: scenario.dfy ===
/** The library's own walk-through of target selection: two screen targets
    made from one instance, the bottom one swapped in inside a frame scope
    opened on the top one, then the instance dropped before either target. */
module Scenario {
  import opened Wrappers
  import opened Ffi
  import opened Gfx
  import opened Native
  import opened Errors
  import opened Render
  import opened Citro3d

  /** Width and height of the targets the walk-through creates. */
  const TestSize: Usize := 10

  /** The frame scope of the walk-through: swap `bottom` in for the active
      target `t` and hand back the bottom target active and the top one
      passive. The scope owns `bottom`. */
  function SwapScopeStep(bottom: ScreenTarget, i: Instance, w: World, t: RenderTarget): (r: Step<(RenderTarget, ScreenTarget)>)
    ensures r.inst == i && r.world == w.(trace := w.trace + [FrameDrawOn(bottom.inner.raw)])
    ensures r.value == (bottom.inner, ScreenTarget(t))
  {
    var s := SwapRenderTarget(i, w, t, bottom, true);
    match s.value
    case Ok(p) => Step(s.inst, s.world, (p.1, p.0))
    case Err(e) => Step(s.inst, s.world, (e.0, e.1))
  }

  function SwapScope(bottom: ScreenTarget): (Instance, World, RenderTarget) -> Step<(RenderTarget, ScreenTarget)>
  {
    (i: Instance, w: World, t: RenderTarget) => SwapScopeStep(bottom, i, w, t)
  }

  /** The instance and both passive targets the walk-through sets up. */
  datatype Prepared = Prepared(inst: Instance, world: World, topTarget: ScreenTarget, bottomTarget: ScreenTarget)

  /** Both targets share the instance's anchor, which has the three holders
      (the scope owns the bottom target and is given the top one). */
  predicate Ready(p: Prepared)
  {
    && p.topTarget.inner.queue == p.inst.queue
    && p.bottomTarget.inner.queue == p.inst.queue
    && p.world.queues[p.inst.queue] >= 3
    && TargetQueues([p.bottomTarget] + [p.topTarget]) <= p.world.queues
  }

  /** Borrows both screens, makes the instance and both targets; `None`
      where the library's test would panic on an `unwrap`. `top` and `bottom` are
      what the native create calls return. */
  function Prepare(w0: World, topScreen: Screen, bottomScreen: Screen, top: Ptr, bottom: Ptr): (r: Option<Prepared>)
    ensures r.Some? ==> Ready(r.value)
  {
    match BorrowScreen(w0, topScreen.id)
    case None => None
    case Some(w1) =>
      match BorrowScreen(w1, bottomScreen.id)
      case None => None
      case Some(w2) =>
        var m := New(w2, true);
        match m.result
        case Err(_) => None
        case Ok(inst) =>
          assert inst.queue in m.world.queues;
          var t := CreateScreenTarget(inst, m.world, TestSize, TestSize, topScreen, None, top);
          match t.result
          case Err(_) => None
          case Ok(topTarget) =>
            var b := CreateScreenTarget(inst, t.world, TestSize, TestSize, bottomScreen, None, bottom);
            match b.result
            case Err(_) => None
            case Ok(bottomTarget) =>
              PairQueues(bottomTarget, topTarget);
              Some(Prepared(inst, b.world, topTarget, bottomTarget))
  }

  /** The frame scope on the top target, then the instance, the target the
      scope left active and the one it left passive are dropped in turn. */
  function RunFrame(p: Prepared): Option<World>
    requires Ready(p)
  {
    var r := RenderToTarget(p.inst, p.world, p.topTarget, true, SwapScope(p.bottomTarget), [p.bottomTarget]);
    match r.value
    case Err(_) => None
    case Ok(o) => Some(DropScreenTarget(DropScreenTarget(DropInstance(r.inst, r.world), o.0), o.1))
  }

  /** The whole walk-through from `w0`. */
  function SelectRenderTarget(w0: World, topScreen: Screen, bottomScreen: Screen, top: Ptr, bottom: Ptr): Option<World>
  {
    var p := Prepare(w0, topScreen, bottomScreen, top, bottom);
    if p.Some? then RunFrame(p.value) else None
  }

  /** The calls that set up the instance and the two targets. */
  function SetupCallsOf(topScreen: Screen, bottomScreen: Screen, top: Ptr, bottom: Ptr): seq<Call>
  {
    [Init(DefaultCmdbufSize)]
    + CreateCalls(TestSize, TestSize, topScreen, None, top)
    + CreateCalls(TestSize, TestSize, bottomScreen, None, bottom)
  }

  /** The frame on the top target, the swap to the bottom one, and the drops. */
  function FrameAndDropCalls(top: Ptr, bottom: Ptr): seq<Call>
  {
    [FrameBegin(FrameSyncDraw), FrameDrawOn(top), FrameDrawOn(bottom), FrameEnd(FrameEndFlags),
     TargetDelete(bottom), TargetDelete(top), Fini]
  }

  /** The calls the walk-through makes, in order. */
  function ExpectedCalls(topScreen: Screen, bottomScreen: Screen, top: Ptr, bottom: Ptr): seq<Call>
  {
    SetupCallsOf(topScreen, bottomScreen, top, bottom) + FrameAndDropCalls(top, bottom)
  }

  /** Dropping the instance first neither tears down nor deletes anything:
      both deletes come before the single teardown, which is the last call,
      and every anchor share and screen borrow is given back. */
  lemma SelectRenderTargetTearsDownOnce(w0: World, topScreen: Screen, bottomScreen: Screen, top: Ptr, bottom: Ptr)
    requires QueuesIssued(w0)
    requires topScreen.id != bottomScreen.id && topScreen.id !in w0.borrowed && bottomScreen.id !in w0.borrowed
    requires top != Null && bottom != Null
    ensures SelectRenderTarget(w0, topScreen, bottomScreen, top, bottom).Some?
    ensures var w := SelectRenderTarget(w0, topScreen, bottomScreen, top, bottom).value;
      && w.trace == w0.trace + ExpectedCalls(topScreen, bottomScreen, top, bottom)
      && w.queues == w0.queues && w.borrowed == w0.borrowed
      && CountFini(w.trace) == CountFini(w0.trace) + 1
  {
    SetupCalls(w0, topScreen, bottomScreen, top, bottom);
    var p := Prepare(w0, topScreen, bottomScreen, top, bottom).value;
    RunFrameCalls(p, w0.queues);
    SelectRunsFrame(w0, topScreen, bottomScreen, top, bottom, p);
    var w5 := RunFrame(p).value;
    BorrowsGivenBack(w0.borrowed, topScreen.id, bottomScreen.id);
    var calls := ExpectedCalls(topScreen, bottomScreen, top, bottom);
    AppendAssoc(w0.trace, SetupCallsOf(topScreen, bottomScreen, top, bottom), FrameAndDropCalls(top, bottom));
    CountFiniAppend(w0.trace, calls);
    ExpectedCallsTearDownOnce(topScreen, bottomScreen, top, bottom);
  }

  lemma BorrowsGivenBack(base: set<ScreenId>, a: ScreenId, b: ScreenId)
    requires a !in base && b !in base
    ensures base + {a, b} - {b, a} == base
  {
  }

  lemma AppendAssoc(a: seq<Call>, b: seq<Call>, c: seq<Call>)
    ensures a + b + c == a + (b + c)
  {
  }

  /** Once set up, the walk-through is the frame and the drops. */
  lemma SelectRunsFrame(w0: World, topScreen: Screen, bottomScreen: Screen, top: Ptr, bottom: Ptr, p: Prepared)
    requires Prepare(w0, topScreen, bottomScreen, top, bottom) == Some(p)
    ensures SelectRenderTarget(w0, topScreen, bottomScreen, top, bottom) == RunFrame(p)
  {
  }

  /** Up to the frame scope: the instance and both targets exist, holding
      three shares of a fresh anchor and both screens. */
  lemma SetupCalls(w0: World, topScreen: Screen, bottomScreen: Screen, top: Ptr, bottom: Ptr)
    requires QueuesIssued(w0)
    requires topScreen.id != bottomScreen.id && topScreen.id !in w0.borrowed && bottomScreen.id !in w0.borrowed
    requires top != Null && bottom != Null
    ensures Prepare(w0, topScreen, bottomScreen, top, bottom).Some?
    ensures var p := Prepare(w0, topScreen, bottomScreen, top, bottom).value;
      && var q := p.inst.queue;
      && q !in w0.queues
      && p.topTarget == ScreenTarget(RenderTarget(top, topScreen, q))
      && p.bottomTarget == ScreenTarget(RenderTarget(bottom, bottomScreen, q))
      && p.world.queues == w0.queues + multiset{q, q, q}
      && p.world.borrowed == w0.borrowed + {topScreen.id, bottomScreen.id}
      && p.world.trace == w0.trace + SetupCallsOf(topScreen, bottomScreen, top, bottom)
  {
    var w2 := w0.(borrowed := w0.borrowed + {topScreen.id, bottomScreen.id});
    assert w0.borrowed + {topScreen.id} + {bottomScreen.id} == w2.borrowed;
    var m := New(w2, true);
    assert m.world.queues == w0.queues + multiset{m.result.value.queue};
  }

  /** The frame and the drops: begin, draw-on for each target, end, then
      the bottom target's delete, the top target's delete and the single
      teardown; every share of the anchor and both screens come back. */
  lemma RunFrameCalls(p: Prepared, rest: multiset<QueueId>)
    requires Ready(p) && p.inst.queue !in rest
    requires p.world.queues == rest + multiset{p.inst.queue, p.inst.queue, p.inst.queue}
    ensures RunFrame(p).Some?
    ensures var w := RunFrame(p).value;
      && w.trace == p.world.trace + FrameAndDropCalls(p.topTarget.inner.raw, p.bottomTarget.inner.raw)
      && w.queues == rest
      && w.borrowed == p.world.borrowed - {p.bottomTarget.inner.screen.id, p.topTarget.inner.screen.id}
  {
    PairQueues(p.bottomTarget, p.topTarget);
    FrameCalls(p.inst, p.world, p.topTarget, p.bottomTarget);
    var r := RenderToTarget(p.inst, p.world, p.topTarget, true, SwapScope(p.bottomTarget), [p.bottomTarget]);
    DropsInOrder(p.inst, r.world, rest, p.bottomTarget, p.topTarget);
  }

  /** The anchors of two targets. */
  lemma PairQueues(a: ScreenTarget, b: ScreenTarget)
    ensures TargetQueues([a] + [b]) == multiset{a.inner.queue, b.inner.queue}
    ensures TargetScreens([a] + [b]) == {a.inner.screen.id, b.inner.screen.id}
  {
    assert ([a] + [b])[1..] == [b] && [b][1..] == [];
    assert TargetQueues([b]) == multiset{b.inner.queue} + TargetQueues([]);
    assert TargetQueues([a] + [b]) == multiset{a.inner.queue} + TargetQueues([b]);
    assert forall i | 0 <= i < 2 :: ([a] + [b])[i] == (if i == 0 then a else b);
  }

  /** The frame scope: begin, draw-on for each target, end; nothing but the
      trace changes, and the targets come back with their roles swapped. */
  lemma FrameCalls(inst: Instance, w: World, topTarget: ScreenTarget, bottomTarget: ScreenTarget)
    requires TargetQueues([bottomTarget] + [topTarget]) <= w.queues
    ensures var r := RenderToTarget(inst, w, topTarget, true, SwapScope(bottomTarget), [bottomTarget]);
      && r.inst == inst
      && r.value == Ok((bottomTarget, topTarget))
      && r.world == w.(trace := w.trace + [FrameBegin(FrameSyncDraw), FrameDrawOn(topTarget.inner.raw),
                                           FrameDrawOn(bottomTarget.inner.raw), FrameEnd(FrameEndFlags)])
  {
    var e := Opened(w, topTarget);
    var o := SwapScope(bottomTarget)(inst, e, IntoInner(topTarget));
    assert o == SwapScopeStep(bottomTarget, inst, e, IntoInner(topTarget));
    assert ScreenTarget(bottomTarget.inner) == bottomTarget && ScreenTarget(topTarget.inner) == topTarget;
    assert o.world.trace + [FrameEnd(FrameEndFlags)]
        == w.trace + [FrameBegin(FrameSyncDraw), FrameDrawOn(topTarget.inner.raw),
                      FrameDrawOn(bottomTarget.inner.raw), FrameEnd(FrameEndFlags)];
  }

  /** Had the top target's draw-on failed, the scope would never run: the
      bottom target it owns is deleted first, then the top target, and the
      two shares and both screens they hold come back. The instance still
      holds the anchor, so nothing tears down. */
  lemma FrameFailureDropsBoth(p: Prepared, rest: multiset<QueueId>)
    requires Ready(p) && p.inst.queue !in rest
    requires p.world.queues == rest + multiset{p.inst.queue, p.inst.queue, p.inst.queue}
    ensures TargetQueues([p.bottomTarget] + [p.topTarget]) <= p.world.queues
    ensures var r := RenderToTarget(p.inst, p.world, p.topTarget, false, SwapScope(p.bottomTarget), [p.bottomTarget]);
      && r.value == Err(InvalidRenderTarget)
      && r.world.trace == p.world.trace + [FrameBegin(FrameSyncDraw), FrameDrawOn(p.topTarget.inner.raw),
                                           TargetDelete(p.bottomTarget.inner.raw), TargetDelete(p.topTarget.inner.raw)]
      && r.world.queues == rest + multiset{p.inst.queue}
      && r.world.borrowed == p.world.borrowed - {p.bottomTarget.inner.screen.id, p.topTarget.inner.screen.id}
  {
    PairQueues(p.bottomTarget, p.topTarget);
    var e := Opened(p.world, p.topTarget);
    DropTwoSharers(e, rest, p.inst.queue, p.bottomTarget, p.topTarget);
  }

  /** Dropping two targets on an anchor that a third share keeps alive:
      two deletes in order, and no teardown. */
  lemma DropTwoSharers(w: World, rest: multiset<QueueId>, q: QueueId, first: ScreenTarget, last: ScreenTarget)
    requires first.inner.queue == q && last.inner.queue == q && q !in rest
    requires w.queues == rest + multiset{q, q, q}
    ensures TargetQueues([first] + [last]) <= w.queues
    ensures var w' := DropScreenTargets(w, [first] + [last]);
      && w'.trace == w.trace + [TargetDelete(first.inner.raw), TargetDelete(last.inner.raw)]
      && w'.queues == rest + multiset{q}
      && w'.borrowed == w.borrowed - {first.inner.screen.id, last.inner.screen.id}
  {
    PairQueues(first, last);
    DropTwoTrace(w, first, last);
    assert (rest + multiset{q, q, q}) - multiset{q, q} == rest + multiset{q};
  }

  /** The calls of dropping two targets whose anchor outlives both. */
  lemma DropTwoTrace(w: World, first: ScreenTarget, last: ScreenTarget)
    requires first.inner.queue == last.inner.queue && w.queues[first.inner.queue] >= 3
    ensures TargetQueues([first] + [last]) <= w.queues
    ensures DropScreenTargets(w, [first] + [last]).trace
         == w.trace + [TargetDelete(first.inner.raw), TargetDelete(last.inner.raw)]
  {
    DropFirstTarget(w, first, last);
    var w1 := DropScreenTarget(w, first);
    DropOneTarget(w1, last);
    assert w1.trace == w.trace + [TargetDelete(first.inner.raw)];
  }

  /** Dropping two targets starts by dropping the first. */
  lemma DropFirstTarget(w: World, first: ScreenTarget, last: ScreenTarget)
    requires first.inner.queue == last.inner.queue && w.queues[first.inner.queue] >= 2
    ensures TargetQueues([first] + [last]) <= w.queues
    ensures last.inner.queue in DropScreenTarget(w, first).queues
    ensures DropScreenTargets(w, [first] + [last]) == DropScreenTargets(DropScreenTarget(w, first), [last])
  {
    PairQueues(first, last);
    assert ([first] + [last])[1..] == [last];
  }

  /** Dropping a one-element sequence of targets is dropping that target. */
  lemma DropOneTarget(w: World, t: ScreenTarget)
    requires t.inner.queue in w.queues
    ensures TargetQueues([t]) <= w.queues
    ensures DropScreenTargets(w, [t]) == DropScreenTarget(w, t)
  {
    assert [t][1..] == [];
  }

  /** The instance's share goes first and the top target's last: only the
      last drop tears down, after both deletes. */
  lemma DropsInOrder(inst: Instance, w: World, rest: multiset<QueueId>, first: ScreenTarget, last: ScreenTarget)
    requires first.inner.queue == inst.queue && last.inner.queue == inst.queue && inst.queue !in rest
    requires w.queues == rest + multiset{inst.queue, inst.queue, inst.queue}
    ensures var w' := DropScreenTarget(DropScreenTarget(DropInstance(inst, w), first), last);
      && w'.trace == w.trace + [TargetDelete(first.inner.raw), TargetDelete(last.inner.raw), Fini]
      && w'.queues == rest
      && w'.borrowed == w.borrowed - {first.inner.screen.id, last.inner.screen.id}
  {
    var q := inst.queue;
    var w3 := DropInstance(inst, w);
    assert w3.trace == w.trace && w3.queues == rest + multiset{q, q};
    var w4 := DropScreenTarget(w3, first);
    assert w4.trace == w3.trace + [TargetDelete(first.inner.raw)] && w4.queues == rest + multiset{q};
    var w5 := DropScreenTarget(w4, last);
    assert w5.queues == rest;
  }

  /** The walk-through's calls hold exactly one teardown. */
  lemma ExpectedCallsTearDownOnce(topScreen: Screen, bottomScreen: Screen, top: Ptr, bottom: Ptr)
    ensures CountFini(ExpectedCalls(topScreen, bottomScreen, top, bottom)) == 1
  {
    var calls := ExpectedCalls(topScreen, bottomScreen, top, bottom);
    CountFiniAppend(calls[..|calls| - 1], [Fini]);
    assert calls[..|calls| - 1] + [Fini] == calls;
    NoFiniCounted(calls[..|calls| - 1]);
  }

  /** A run of calls without a teardown counts none. */
  lemma {:induction false} NoFiniCounted(calls: seq<Call>)
    requires forall i | 0 <= i < |calls| :: calls[i] != Fini
    ensures CountFini(calls) == 0
    decreases |calls|
  {
    if |calls| > 0 {
      NoFiniCounted(calls[..|calls| - 1]);
    }
  }
}

=== FILE: wrappers.dfy ===
/** Optional values and fallible results, the two shapes every operation of
    the bindings returns. */
module Wrappers {

  datatype Option<+T> = None | Some(value: T)

  datatype Result<+T, +E> = Ok(value: T) | Err(error: E)
}
